=== FILE: README.md ===
# Turn engine and admission server of a networked card game

This project models two parts of the server of a turn-based multiplayer card
game, and proves properties of the model.

- **The turn engine's helpers** (`GameControllerTools.cpp`). The roster is a
  sequence of players, each with an id, health, maximum health, a living flag
  and a hand. The engine also keeps a draw pile and a cursor (`currIdx`, plus
  the id in turn, `playingId`). The model covers:
  - advancing the turn past dead seats;
  - the "sits next to me" test;
  - id lookup and the player list;
  - drawing and discarding cards;
  - the react-or-pass window;
  - the classification of a player's answer;
  - damage with its dying window. The dying window is saved by a Peach or a
    Peach Garden Oath. Without a save the player dies and its hand goes to the
    pile.
- **The admission server's bookkeeping** (`GameServer.cpp`). The model covers:
  - the port-retry loops;
  - handing out ids and ports to connecting clients;
  - registering a client only when it acknowledges;
  - the liveness sweep that restarts after every eviction;
  - the readiness guard of `start`;
  - kicking a player.

Everything a socket would deliver is passed in as data:

- the replies to a reaction window: a map from player id to decoded message;
- the poll rounds of `waitForCard`: one such map per round before the deadline;
- bind outcomes: a map from port to failure kind;
- a client's handshake reply: an optional command;
- the clients that answer the liveness probe: a set of ids.

Modules:

- `Wrappers`: option, result and outcome types.
- `Seqs`: order-preserving sub-sequences and removal at an index.
- `Circular`: clockwise and counter-clockwise steps around the table.
- `Roster`: the controller state, lookup by id, the player list, and the multiset of all cards.
- `Turns`: `nextPlayerIdx` and `isNearby`.
- `CardMoves`: `drawCard` and both `removeCard` overloads.
- `Reactions`: `waitForCard`'s message classification and `waitForReact`'s decision.
- `Damage`: `damage`, with its Peach and Peach Garden Oath saves.
- `Admission`: the server's port allocation, connection handling, sweep, readiness and kick.
- `AsWritten`: the places where the code, taken literally, departs from what is evidently intended (see Findings).

## Choices where the code is followed literally

- **Peach Garden Oath.** The code sets the dying target to 0 and then heals
  every player below their maximum
  (src/server/basic/GameControllerTools.cpp:305-308). So the target ends at 1,
  and dead players heal too. `Damage.OathSave` follows this.
- **Death.** `die()` leaves the seat in place, and `nextPlayerIdx` and
  `isNearby` skip seats whose player is not alive. So the model keeps the dead
  in their seat with `alive` false and an empty hand.
- **Overkill.** The test `<= 0` at src/server/basic/GameControllerTools.cpp:289
  shows that a blow taking health to zero or below is meant to be lethal, for
  example health 1 and damage 5. The size_t subtraction does not do this (see
  Findings). The model uses the mathematical comparison.

## Model

| member | source | states |
|---|---|---|
| Roster.FindPlayerById | src/server/basic/GameControllerTools.cpp:80-87 | the seat found holds the id and no earlier seat does; the unknown-player error is raised exactly when no seat holds it |
| Roster.PlayerList | src/server/basic/GameControllerTools.cpp:26-33 | without exclusion, every id in seating order; with exclusion, an order-preserving sub-list that holds every id except the current player's, each as often as on the roster |
| Turns.NextPlayerIdx | src/server/basic/GameControllerTools.cpp:46-58 | fails iff nobody is alive; otherwise the new cursor is the first living seat met clockwise within a full turn, every seat passed is dead, `playingId` is that player's id and nothing else changes; staying put means the cursor's player is the sole survivor |
| Turns.SoleSurvivor | src/server/basic/GameControllerTools.cpp:48-56 | a clockwise search that returns to its start seat found every other seat dead |
| Turns.IsNearby | src/server/basic/GameControllerTools.cpp:169-188 | true iff the target is the nearest living player to the left or to the right of the cursor, the cursor's own seat excluded; false whenever nobody else is alive |
| CardMoves.DrawCard | src/server/basic/GameControllerTools.cpp:73-77 | the card returned and the remaining pile put back together give the old pile; nothing else changes and no card is lost |
| CardMoves.MoveToPile | src/server/basic/GameControllerTools.cpp:270-274 | the card leaves exactly one hand, order kept, and lands at the bottom of the pile; the total multiset of cards is unchanged |
| CardMoves.RemoveCard | src/server/basic/GameControllerTools.cpp:269-275 | succeeds iff the player exists, holds the card and the type matches; then the first card with that id in the first matching seat's hand, of the checked type, is taken from that hand and appended to the pile, other seats unchanged, cards conserved |
| CardMoves.RemoveCardErrors | src/server/basic/GameControllerTools.cpp:269-272 | the unknown-player, card-not-in-hand and type-mismatch errors each arise exactly in their own situation |
| CardMoves.RemovePlayedCard | src/server/basic/GameControllerTools.cpp:278-280 | a played card is removed under its declared type; on success the pile gains exactly that card, the card leaves the hand of the first seat of its source and no other hand changes, nothing but hands changes, and cards are conserved |
| Reactions.FirstUnknown | src/server/basic/GameControllerTools.cpp:96-100 | the first target that is not on the roster, if any, and only then none |
| Reactions.ClassifyLossless | src/server/basic/GameControllerTools.cpp:127-157 | a classified message loses nothing but the order and repetition of a pass list: the action names its sender, and two messages giving the same action carry the same play or the same set of discarded ids |
| Reactions.FirstReady | src/server/basic/GameControllerTools.cpp:118-121 | the first target, in target order, with a message waiting, and none only when no target has one |
| Reactions.RoundAction | src/server/basic/GameControllerTools.cpp:114-161 | a round yields an action iff the first ready target sent a play or a pass, and the action is that message classified |
| Reactions.WaitForCard | src/server/basic/GameControllerTools.cpp:92-164 | an unknown target is an error; otherwise the result is the action of the first round that yields one, and no action iff no round does |
| Reactions.FirstValid | src/server/basic/GameControllerTools.cpp:220-240 | reference search: the first target from a position on that was offered the window and answered with an allowed play |
| Reactions.ScanReplies | src/server/basic/GameControllerTools.cpp:220-262 | the scan with its pass vector yields exactly the reply of the reference search's target, and nothing when that search finds none, unanimous passes included |
| Reactions.WaitForReact | src/server/basic/GameControllerTools.cpp:205-263 | an unknown target is an error; no reaction iff no offered target answered with an allowed play; otherwise the first such answer, credited to its sender |
| Damage.Healed | src/server/basic/GameControllerTools.cpp:306-308 | the Oath heal never lowers health and adds at most one point, adds it exactly when the player is below the maximum, and never lifts a player at or below the maximum above it |
| Damage.HealAll | src/server/basic/GameControllerTools.cpp:306-308 | every player's health is healed by the Oath rule and nothing else changes |
| Damage.Die | src/server/basic/GameControllerTools.cpp:312-314 | the target is no longer alive, its hand is empty and appended to the pile, other seats and the cursor are unchanged, cards conserved |
| Damage.DyingReaction | src/server/basic/GameControllerTools.cpp:295 | a reaction to the dying window is always a Peach or a Peach Garden Oath |
| Damage.ZeroThenHeal | src/server/basic/GameControllerTools.cpp:305-308 | the target ends at the Oath-healed value of 0 and every other player at its Oath-healed health |
| Damage.ZeroThenHealAfterHands | src/server/basic/GameControllerTools.cpp:304-308 | the same outcome described against the state before the card was discarded |
| Damage.PeachSave | src/server/basic/GameControllerTools.cpp:297-301 | succeeds iff the healer can discard the Peach; the pile gains that Peach, the target is at 1, nobody else's health changes, cards conserved |
| Damage.PeachSaveFrame | src/server/basic/GameControllerTools.cpp:299 | the Peach leaves the hand of the first seat of the healer and no other hand changes |
| Damage.PeachKeepsHealthInRange | src/server/basic/GameControllerTools.cpp:297-301 | the Peach lifts nobody above the maximum |
| Damage.OathSave | src/server/basic/GameControllerTools.cpp:302-309 | succeeds iff the healer can discard the Oath; the pile gains it, the target ends at the healed value of 0, every other player is healed by one below the maximum, cards conserved |
| Damage.OathSaveFrame | src/server/basic/GameControllerTools.cpp:304 | the Oath leaves the hand of the first seat of the healer and no other hand changes |
| Damage.OathKeepsHealthInRange | src/server/basic/GameControllerTools.cpp:306-308 | the Oath lifts nobody above the maximum |
| Damage.Rescue | src/server/basic/GameControllerTools.cpp:296-310 | a reaction that is neither save changes nothing; a save succeeds iff the healer can discard the card, which then leaves the healer's first seat, no other hand changing, and lands on the pile; a Peach puts the target at 1 and leaves everyone else's health alone; an Oath heals the target from 0 and every other player by the Oath rule; cursor, cards and health bounds kept |
| Damage.Damage | src/server/basic/GameControllerTools.cpp:285-326 | unknown or dead target is an error; a non-lethal blow lowers health by exactly the amount and changes nothing else; a lethal blow is announced as dying first and a save is resolved by Rescue; cards are conserved and health bounds kept |
| Damage.DamageKills | src/server/basic/GameControllerTools.cpp:311-320 | with no reaction the target dies, its whole hand goes to the pile, and the dying and dead notices go out in that order |
| Damage.DamageLeavesTargetPositive | src/server/basic/GameControllerTools.cpp:289-325 | after any blow the target is dead or at one point or more |
| Admission.AllocatePort | src/server/communication/GameServer.cpp:21-35 | the bound port is at least the candidate and free, and every port before it was in use and below 65535; a failure names a port reached the same way that failed otherwise or is 65535 |
| Admission.AllocateIsLeast | src/server/communication/GameServer.cpp:96-113 | any free port preceded only by in-use ports below 65535 is the one bound |
| Admission.AllocateFailsAt | src/server/communication/GameServer.cpp:106-111 | the loop rethrows exactly at the first port that fails other than by being in use below 65535 |
| Admission.NewServer | src/server/communication/GameServer.cpp:16-37 | the server exists iff the bridge port binds; the registry starts empty and the next candidate is one past the bound port |
| Admission.ConnectWithClient | src/server/communication/GameServer.cpp:92-140 | a bind failure propagates with the failing candidate kept; otherwise the reply carries the bound port and the current id, the id counter advances, and the client is appended iff it acknowledged |
| Admission.ConnectKeepsWellFormed | src/server/communication/GameServer.cpp:127-133 | ids stay strictly increasing and below the next id after any connection request |
| Admission.Responders | src/server/communication/GameServer.cpp:150-171 | the answering clients form an order-preserving sub-list holding every answering client and no silent one |
| Admission.RespondersCount | src/server/communication/GameServer.cpp:153-169 | each answering client is kept as often as it was registered, each silent one never |
| Admission.DropSilent | src/server/communication/GameServer.cpp:164-168 | evicting a silent client does not change the outcome of the sweep |
| Admission.AllAnswer | src/server/communication/GameServer.cpp:153-170 | a pass through the registry without eviction ends the sweep with the registry as it is |
| Admission.CheckAndKick | src/server/communication/GameServer.cpp:150-171 | the restarting sweep terminates with exactly the answering clients in their original order |
| Admission.SweepIncreasing | src/server/communication/GameServer.cpp:150-171 | the sweep keeps ids strictly increasing |
| Admission.SweepKeepsWellFormed | src/server/communication/GameServer.cpp:164-167 | the sweep keeps the registry well formed |
| Admission.IsReady | src/server/communication/GameServer.cpp:144-147 | the registry is swept, and ready iff at least the minimum number of answering clients remain |
| Admission.Start | src/server/communication/GameServer.cpp:174-177 | the start fails iff too few answering clients remain; the sweep persists either way |
| Admission.KickPlayer | src/server/communication/GameServer.cpp:202-215 | removes only the first entry with the id and keeps the rest in order; an unknown id changes nothing |
| Admission.KickMembers | src/server/communication/GameServer.cpp:202-215 | kicking never brings a client into the registry |
| Admission.KickIncreasing | src/server/communication/GameServer.cpp:202-215 | kicking keeps the registry's ids strictly increasing |
| Admission.KickKeepsWellFormed | src/server/communication/GameServer.cpp:206-209 | kicking keeps the registry well formed |
| AsWritten.LethalAsWrittenOnlyExact | src/server/basic/GameControllerTools.cpp:289 | in size_t arithmetic the test holds exactly when the damage equals the health |
| AsWritten.OverkillIsMissed | src/server/basic/GameControllerTools.cpp:289 | health 1 and damage 5 is lethal by intent and not lethal as compiled |
| AsWritten.PlayerListAsWritten | src/server/basic/GameControllerTools.cpp:26-33 | the list as written never holds the current id and is no longer than the roster |
| AsWritten.PlayerListAsWrittenExcluding | src/server/basic/GameControllerTools.cpp:30-31 | with the exclusion on, the loop as written gives the intended list |
| AsWritten.PlayerListAsWrittenEmpty | src/server/basic/GameControllerTools.cpp:30 | with the exclusion off, the loop as written gives the empty list |
| AsWritten.FullListIsLost | src/server/basic/GameControllerTools.cpp:26-33 | on any non-empty roster the full list as written differs from the intended one |
| AsWritten.PollItemsAsWritten | src/server/basic/GameControllerTools.cpp:206-218 | the first items, one per target, hold no socket; every later item is the socket of an offered target, and every offered target has its socket among them |
| AsWritten.ScanItems | src/server/basic/GameControllerTools.cpp:220-240 | the scan from item `i` yields the action read from the first item that holds a socket whose owner sent an allowed play, credited to the target at that position, and nothing exactly when no such item lies before the end of the targets |
| AsWritten.WaitForReactAsWritten | src/server/basic/GameControllerTools.cpp:205-263 | as written, an unknown target is still an error |
| AsWritten.ReactAsWrittenNeverReacts | src/server/basic/GameControllerTools.cpp:206-221 | as written, the window never yields a reaction |
| AsWritten.ReactionIsLost | src/server/basic/GameControllerTools.cpp:215-240 | a Peach played into the window is taken by the intended model and ignored as written |
| AsWritten.ReplierIsWrongPlayer | src/server/basic/GameControllerTools.cpp:224 | with ids 1 and 2, target 1 is read from player 2 while the lookup by id finds player 1 |
| AsWritten.ReadyCount | src/server/basic/GameControllerTools.cpp:107 | the poll count is zero iff no target has a message waiting, and at most the number of targets |
| AsWritten.PlayOfSecondIsMissed | src/server/basic/GameControllerTools.cpp:118 | when only the second of two targets plays, the intended round takes the play and the written one yields nothing |
| AsWritten.RemoveCardAsWritten | src/server/basic/GameControllerTools.cpp:269-275 | as written, a type mismatch throws after the card has left the hand, so one card with that id disappears from play |
| AsWritten.MismatchLosesCard | src/server/basic/GameControllerTools.cpp:270-272 | claiming a Peach is an Oath is refused with no change by the intended model and loses the Peach as written |

## Left out

- Sockets, `zmq::poll`, receive timeouts, TCP keepalive and the deadline-driven
  polling loop of `waitForCard`. The replies and poll rounds are parameters. A
  receive error is modelled as a message that yields nothing.
- Reactions.WaitForCard: does not model the exception path after a poll error.
  As written, a `zmq::error_t` from the poll leads to `continue`
  (src/server/basic/GameControllerTools.cpp:108-110), which skips the unlocks
  at :112-113. If time remains, the next pass calls `lock()` (:104) on a
  `std::unique_lock` that already owns its mutex. That throws
  `std::system_error`, so `waitForCard` ends with an exception. The model
  replaces a failed poll with a round in which no target is ready, because it
  has no locks.
- The admission thread, `isWaiting`, `waitForConnection` and all locking. These
  are concurrency, not sequential logic.
- Protobuf serialisation, logging, `broadcast`, `bcStatus`, `bcCard` and
  `startCommand`. Only the dying and dead notices of `damage` are recorded, as
  a list of notices.
- The player header (`isAlive`, `hasCard`, `die`, `setHealth` and
  `Player::removeCard`) is abstracted as record fields and sequence operations.
  - A card the player does not hold is modelled as its own error.
  - `die` is modelled as clearing the living flag and emptying the hand into
    the pile.
- `TurnCardsAvailable` is not part of this model. The dying window is taken to
  allow exactly Peach and Peach Garden Oath.
- The default argument of `getPlayerList` used by `damage` is not visible. It
  is taken to be "exclude the current player".
- `MIN_PLAYER_NUM` and the initial `assignedId` are header constants that are
  not visible. They are the parameters `minPlayers` and `firstId`.
- The liveness probe's answers are a fixed set of ids. A client that answers
  on one pass of the restarting sweep also answers on the next.
- The type of `potentialPort` is not visible, so it is an unbounded number.
  The wrap-around of a 16-bit counter after binding port 65535 is not
  modelled.
- Destructor and context teardown, `setWaitingPlayerNum`, `listPlayers`, and
  the whole client program.
- `start` hands the registry to a new game controller. Only its readiness
  guard is modelled.

## Findings

| source | as written | input that shows it | evidently intended | confidence | as-written member | corrected member |
|---|---|---|---|---|---|---|
| src/server/basic/GameControllerTools.cpp:289 | `getHealth() - damage <= 0` is computed in size_t, so it holds only when the damage equals the health | health 1, damage 5: not lethal; the target keeps acting | a blow that takes health to zero or below opens the dying window | high (not executed) | AsWritten.LethalAsWrittenOnlyExact | Damage.DamageLeavesTargetPositive |
| src/server/basic/GameControllerTools.cpp:30 | the loop keeps an id only when `exclude_current` is true, so `getPlayerList(false)` is always empty | any non-empty roster with `exclude_current` false | every id in seating order | high (not executed) | AsWritten.PlayerListAsWrittenEmpty | Roster.PlayerList |
| src/server/basic/GameControllerTools.cpp:206 | `poll_items` starts with one empty item per target and the sockets are appended after them; the scan reads only the empty items | player 1 holds a Peach and plays it: no reaction | the scan reads the offered targets' sockets and takes the first allowed play | high (not executed) | AsWritten.ReactionIsLost | Reactions.WaitForReact |
| src/server/basic/GameControllerTools.cpp:224 | the reply is read from `players[target[i]]`, the seat whose position equals the id | roster ids 1 and 2, target 1: player 2's channel is read | the player with that id, as found by `findPlayerById` | high (not executed) | AsWritten.ReplierIsWrongPlayer | Roster.FindPlayerById |
| src/server/basic/GameControllerTools.cpp:118 | the count of ready items minus one is used as the index of the ready item | targets 1 and 2, only 2 has sent a play: index 0 is read, is not ready, and the play is missed this round | the first ready target's message is read | high (not executed) | AsWritten.PlayOfSecondIsMissed | Reactions.RoundAction |
| src/server/basic/GameControllerTools.cpp:270 | the card is taken from the hand before its type is checked; on a mismatch the exception leaves it in neither hand nor pile | player 1 plays its Peach declared as an Oath: the Peach vanishes | a mismatched card is refused and stays in the hand | medium (not executed) | AsWritten.MismatchLosesCard | CardMoves.RemoveCard |

=== FILE: admission.dfy ===
/**
 * The admission server (GameServer.cpp): it binds its bridge port, hands every
 * connecting client a private port and a fresh player id, keeps the clients
 * that acknowledge, sweeps out the ones that stop answering, and lets the game
 * start once enough players remain.
 *
 * Sockets are replaced by oracles: `failures` says how binding each port
 * would fail (a port missing from the map binds), an optional `Command` is a
 * client's handshake reply, and a set of ids names the clients that answer
 * the liveness probe.
 */
module Admission {
  import opened Wrappers
  import Seqs

  /** The highest TCP port; the retry loops stop climbing here. */
  const MaxPort: nat := 65535

  /** A player id as `kickPlayer` receives it (an unsigned 16-bit value). */
  type UInt16 = x: nat | x < 0x1_0000

  /** Why a bind fails: the port is taken (EADDRINUSE) or anything else. */
  datatype BindFailure = AddressInUse | OtherFailure

  /** The error a retry loop rethrows: the candidate it stopped at and why. */
  datatype BindError = BindError(port: nat, cause: BindFailure)

  /** The commands a peer may answer with; only the acknowledgement matters here. */
  datatype Command = ConnectAck | OtherCommand(tag: nat)

  /** A registered client and the private port it was given. */
  datatype Client = Client(id: nat, port: nat)

  /**
   * Server bookkeeping: the registry in admission order, the next port to try
   * and the next id to hand out.
   */
  datatype Server = Server(players: seq<Client>, potentialPort: nat, assignedId: nat)

  /** What the client is told: its private port and its player id. */
  datatype ConnectReply = ConnectReply(port: nat, playerId: nat)

  /**
   * One connection request: either binding failed and the error propagates, or
   * the reply went out and `joined` says whether the client acknowledged.
   */
  datatype Connection =
    | Rejected(server: Server, failure: BindError)
    | Replied(server: Server, reply: ConnectReply, joined: bool)

  /** A port the retry loop steps over: it is taken and a higher one exists. */
  predicate SkippedPort(p: nat, failures: map<nat, BindFailure>) {
    p in failures && failures[p] == AddressInUse && p < MaxPort
  }

  /**
   * The bind retry loop from `candidate` upwards: a taken port below 65535 is
   * skipped; the first port that binds is the result; any other failure, or
   * a taken 65535, ends the loop with an error naming the candidate.
   */
  function AllocatePort(candidate: nat, failures: map<nat, BindFailure>): (r: Result<nat, BindError>)
    ensures r.Ok? ==> candidate <= r.value && r.value !in failures
    ensures r.Ok? ==> forall p :: candidate <= p < r.value ==> SkippedPort(p, failures)
    ensures r.Err? ==> candidate <= r.error.port && r.error.port in failures
    ensures r.Err? ==> r.error.cause == failures[r.error.port]
    ensures r.Err? ==> r.error.cause == OtherFailure || r.error.port >= MaxPort
    ensures r.Err? ==> forall p :: candidate <= p < r.error.port ==> SkippedPort(p, failures)
    decreases MaxPort - candidate
  {
    if candidate !in failures then Ok(candidate)
    else if SkippedPort(candidate, failures) then AllocatePort(candidate + 1, failures)
    else Err(BindError(candidate, failures[candidate]))
  }

  /**
   * The bound port is the least one not failing at all: any port `q` from
   * `candidate` on that binds, with every port before it skipped, is the
   * loop's result.
   */
  lemma {:induction false} AllocateIsLeast(candidate: nat, failures: map<nat, BindFailure>, q: nat)
    requires candidate <= q && q !in failures
    requires forall p :: candidate <= p < q ==> SkippedPort(p, failures)
    ensures AllocatePort(candidate, failures) == Ok(q)
    decreases q - candidate
  {
    if candidate < q {
      assert SkippedPort(candidate, failures);
      AllocateIsLeast(candidate + 1, failures, q);
    }
  }

  /**
   * The loop fails exactly at a port `q` that fails other than by being
   * skippable, when every port before it was skipped.
   */
  lemma {:induction false} AllocateFailsAt(candidate: nat, failures: map<nat, BindFailure>, q: nat)
    requires candidate <= q && q in failures && !SkippedPort(q, failures)
    requires forall p :: candidate <= p < q ==> SkippedPort(p, failures)
    ensures AllocatePort(candidate, failures) == Err(BindError(q, failures[q]))
    decreases q - candidate
  {
    if candidate < q {
      assert SkippedPort(candidate, failures);
      AllocateFailsAt(candidate + 1, failures, q);
    }
  }

  /**
   * The server constructor: bind the bridge port from `port` on; the next
   * candidate is one past the bound port and the registry starts empty.
   * The first id to hand out is a header constant, given here as `firstId`.
   */
  function NewServer(port: UInt16, failures: map<nat, BindFailure>, firstId: nat): (r: Result<Server, BindError>)
    ensures r.Ok? <==> AllocatePort(port, failures).Ok?
    ensures r.Err? ==> r.error == AllocatePort(port, failures).error
    ensures r.Ok? ==> r.value.players == [] && r.value.assignedId == firstId
    ensures r.Ok? ==> port < r.value.potentialPort && r.value.potentialPort - 1 !in failures
    ensures r.Ok? ==> forall p :: port <= p < r.value.potentialPort - 1 ==> SkippedPort(p, failures)
  {
    match AllocatePort(port, failures)
    case Err(e) => Err(e)
    case Ok(q) => Ok(Server([], q + 1, firstId))
  }

  /**
   * connectWithClient: bind a private port from `potentialPort` on, reply
   * with that port and the next id, and register the client iff its
   * handshake reply `ack` is the acknowledgement. The id is consumed by every
   * attempt that gets as far as the reply. When binding fails, the failed
   * candidate stays the next one to try.
   */
  function ConnectWithClient(s: Server, failures: map<nat, BindFailure>, ack: Option<Command>): (r: Connection)
    ensures r.Rejected? <==> AllocatePort(s.potentialPort, failures).Err?
    ensures r.Rejected? ==> r.server == s.(potentialPort := r.failure.port)
    ensures r.Rejected? ==> r.failure == AllocatePort(s.potentialPort, failures).error
    ensures r.Replied? ==> r.reply.port == r.server.potentialPort - 1
    ensures r.Replied? ==> s.potentialPort <= r.reply.port && r.reply.port !in failures
    ensures r.Replied? ==> forall p :: s.potentialPort <= p < r.reply.port ==> SkippedPort(p, failures)
    ensures r.Replied? ==> r.reply.playerId == s.assignedId && r.server.assignedId == s.assignedId + 1
    ensures r.Replied? ==> (r.joined <==> ack == Some(ConnectAck))
    ensures r.Replied? && r.joined ==> r.server.players == s.players + [Client(s.assignedId, r.reply.port)]
    ensures r.Replied? && !r.joined ==> r.server.players == s.players
  {
    match AllocatePort(s.potentialPort, failures)
    case Err(e) => Rejected(s.(potentialPort := e.port), e)
    case Ok(q) =>
      var joined := ack == Some(ConnectAck);
      var client := Client(s.assignedId, q);
      Replied(Server(if joined then s.players + [client] else s.players, q + 1, s.assignedId + 1),
              ConnectReply(q, s.assignedId), joined)
  }

  /** Ids strictly increase along the registry, so no id is registered twice. */
  predicate IdsIncreasing(ps: seq<Client>) {
    forall i, j :: 0 <= i < j < |ps| ==> ps[i].id < ps[j].id
  }

  /** Registered ids are strictly increasing and all below the next id to hand out. */
  predicate WellFormed(s: Server) {
    && IdsIncreasing(s.players)
    && (forall i :: 0 <= i < |s.players| ==> s.players[i].id < s.assignedId)
  }

  /** A connection request, whatever its outcome, keeps the registry well formed. */
  lemma ConnectKeepsWellFormed(s: Server, failures: map<nat, BindFailure>, ack: Option<Command>)
    requires WellFormed(s)
    ensures WellFormed(ConnectWithClient(s, failures, ack).server)
  {
    var r := ConnectWithClient(s, failures, ack);
    if r.Replied? && r.joined {
      var ps := r.server.players;
      assert forall i :: 0 <= i < |s.players| ==> ps[i] == s.players[i];
      assert ps[|s.players|].id == s.assignedId;
    }
  }

  /** The clients of `ps` that answer the liveness probe, in registry order. */
  function Responders(ps: seq<Client>, acks: set<nat>): (r: seq<Client>)
    ensures Seqs.IsSubseq(r, ps)
    ensures forall c :: c in r ==> c.id in acks
    ensures forall c :: c in ps && c.id in acks ==> c in r
  {
    if ps == [] then []
    else
      var rest := Responders(ps[1..], acks);
      assert ps == [ps[0]] + ps[1..];
      if ps[0].id in acks then [ps[0]] + rest
      else
        Seqs.SubseqSkip(rest, ps);
        rest
  }

  /** The sweep keeps every copy of an answering client and no copy of a silent one. */
  lemma {:induction false} RespondersCount(ps: seq<Client>, acks: set<nat>, c: Client)
    ensures multiset(Responders(ps, acks))[c] == if c.id in acks then multiset(ps)[c] else 0
    decreases |ps|
  {
    if ps != [] {
      RespondersCount(ps[1..], acks, c);
      assert ps == [ps[0]] + ps[1..];
      if ps[0].id in acks {
        assert Responders(ps, acks) == [ps[0]] + Responders(ps[1..], acks);
      }
    }
  }

  /** Taking out a client that does not answer does not change who answers. */
  lemma {:induction false} DropSilent(ps: seq<Client>, i: nat, acks: set<nat>)
    requires i < |ps| && ps[i].id !in acks
    ensures Responders(Seqs.RemoveAt(ps, i), acks) == Responders(ps, acks)
    decreases i
  {
    if i > 0 {
      DropSilent(ps[1..], i - 1, acks);
      Seqs.RemoveAtTail(ps);
      assert Seqs.RemoveAt(ps, i)[1..] == Seqs.RemoveAt(ps[1..], i - 1);
    } else {
      assert Seqs.RemoveAt(ps, 0) == ps[1..];
    }
  }

  /** A registry in which everyone answers is its own sweep. */
  lemma {:induction false} AllAnswer(ps: seq<Client>, acks: set<nat>)
    requires forall j :: 0 <= j < |ps| ==> ps[j].id in acks
    ensures Responders(ps, acks) == ps
    decreases |ps|
  {
    if ps != [] {
      AllAnswer(ps[1..], acks);
      assert ps == [ps[0]] + ps[1..];
    }
  }

  /**
   * checkAndKick: probe the clients in order; the first that does not answer
   * is removed and the scan restarts from the front. The sweep ends with
   * exactly the clients that answer, in their original order.
   */
  method CheckAndKick(ps: seq<Client>, acks: set<nat>) returns (kept: seq<Client>)
    ensures kept == Responders(ps, acks)
    ensures Seqs.IsSubseq(kept, ps)
    ensures forall c :: c in ps ==> (c in kept <==> c.id in acks)
  {
    var cur := ps;
    var i := 0;
    while i < |cur|
      invariant i <= |cur|
      invariant Responders(cur, acks) == Responders(ps, acks)
      invariant forall j :: 0 <= j < i ==> cur[j].id in acks
      decreases |cur|, |cur| - i
    {
      if cur[i].id !in acks {
        DropSilent(cur, i, acks);
        cur := Seqs.RemoveAt(cur, i);
        i := 0;
      } else {
        i := i + 1;
      }
    }
    AllAnswer(cur, acks);
    kept := cur;
  }

  /** The sweep keeps ids strictly increasing. */
  lemma {:induction false} SweepIncreasing(ps: seq<Client>, acks: set<nat>)
    requires IdsIncreasing(ps)
    ensures IdsIncreasing(Responders(ps, acks))
    decreases |ps|
  {
    if ps != [] {
      var tail := ps[1..];
      assert forall i, j :: 0 <= i < j < |tail| ==> tail[i] == ps[i + 1] && tail[j] == ps[j + 1];
      SweepIncreasing(tail, acks);
      var rest := Responders(tail, acks);
      Seqs.SubseqMembers(rest, tail);
      if ps[0].id in acks {
        var r := [ps[0]] + rest;
        assert Responders(ps, acks) == r;
        forall i, j | 0 <= i < j < |r|
          ensures r[i].id < r[j].id
        {
          assert r[j] == rest[j - 1];
          if i == 0 {
            assert r[j] in tail;
          } else {
            assert r[i] == rest[i - 1];
          }
        }
      }
    }
  }

  /** The sweep keeps the registry well formed. */
  lemma SweepKeepsWellFormed(s: Server, acks: set<nat>)
    requires WellFormed(s)
    ensures WellFormed(s.(players := Responders(s.players, acks)))
  {
    SweepIncreasing(s.players, acks);
    Seqs.SubseqMembers(Responders(s.players, acks), s.players);
  }

  /**
   * isReady: sweep the registry, then report whether at least `minPlayers`
   * remain. The header constant MIN_PLAYER_NUM is the parameter `minPlayers`.
   */
  method IsReady(s: Server, acks: set<nat>, minPlayers: nat) returns (swept: Server, ready: bool)
    ensures swept == s.(players := Responders(s.players, acks))
    ensures ready <==> |Responders(s.players, acks)| >= minPlayers
  {
    var kept := CheckAndKick(s.players, acks);
    swept := s.(players := kept);
    ready := |kept| >= minPlayers;
  }

  /** Why the game cannot start. */
  datatype StartError = NotEnoughPlayers

  /**
   * The readiness guard of start: the sweep happens either way, and the start
   * fails iff fewer than `minPlayers` answering clients remain.
   */
  method Start(s: Server, acks: set<nat>, minPlayers: nat) returns (swept: Server, started: Outcome<StartError>)
    ensures swept == s.(players := Responders(s.players, acks))
    ensures started == Fail(NotEnoughPlayers) <==> |swept.players| < minPlayers
    ensures started.Pass? ==> forall c :: c in swept.players ==> c.id in acks
  {
    var ready;
    swept, ready := IsReady(s, acks, minPlayers);
    started := if ready then Pass else Fail(NotEnoughPlayers);
  }

  function ClientId(c: Client): nat { c.id }

  /** `k` is the first registry position holding id `id`. */
  predicate FirstWithId(ps: seq<Client>, id: nat, k: nat) {
    Seqs.IsFirstKey(ps, ClientId, id, k)
  }

  /**
   * kickPlayer: remove the first client with id `id` and keep the others in
   * order; an unknown id leaves the registry as it is.
   */
  function KickPlayer(ps: seq<Client>, id: UInt16): (r: seq<Client>)
    ensures (forall k :: 0 <= k < |ps| ==> ps[k].id != id) ==> r == ps
    ensures forall k: nat :: FirstWithId(ps, id, k) ==> r == Seqs.RemoveAt(ps, k)
    decreases |ps|
  {
    if ps == [] then []
    else if ps[0].id == id then
      assert Seqs.RemoveAt(ps, 0) == ps[1..];
      ps[1..]
    else
      var rest := KickPlayer(ps[1..], id);
      Seqs.RemoveAtTail(ps);
      assert forall k: nat :: FirstWithId(ps, id, k) ==> k > 0 && FirstWithId(ps[1..], id, k - 1);
      [ps[0]] + rest
  }

  /** Kicking brings in no client. */
  lemma {:induction false} KickMembers(ps: seq<Client>, id: UInt16)
    ensures forall c :: c in KickPlayer(ps, id) ==> c in ps
    decreases |ps|
  {
    if ps != [] && ps[0].id != id {
      KickMembers(ps[1..], id);
      assert KickPlayer(ps, id) == [ps[0]] + KickPlayer(ps[1..], id);
    }
  }

  /** Kicking keeps ids strictly increasing. */
  lemma {:induction false} KickIncreasing(ps: seq<Client>, id: UInt16)
    requires IdsIncreasing(ps)
    ensures IdsIncreasing(KickPlayer(ps, id))
    decreases |ps|
  {
    if ps != [] && ps[0].id != id {
      var tail := ps[1..];
      assert IdsIncreasing(tail) by {
        assert forall i, j :: 0 <= i < j < |tail| ==> tail[i] == ps[i + 1] && tail[j] == ps[j + 1];
      }
      KickIncreasing(tail, id);
      KickMembers(tail, id);
      var rest := KickPlayer(tail, id);
      var r := [ps[0]] + rest;
      assert KickPlayer(ps, id) == r;
      forall i, j | 0 <= i < j < |r|
        ensures r[i].id < r[j].id
      {
        assert r[j] == rest[j - 1];
        if i == 0 {
          assert r[j] in tail;
        } else {
          assert r[i] == rest[i - 1];
        }
      }
    } else if ps != [] {
      assert KickPlayer(ps, id) == ps[1..];
      assert forall i, j :: 0 <= i < j < |ps| - 1 ==> ps[1..][i] == ps[i + 1] && ps[1..][j] == ps[j + 1];
    }
  }

  /** Kicking a player keeps the registry well formed. */
  lemma KickKeepsWellFormed(s: Server, id: UInt16)
    requires WellFormed(s)
    ensures WellFormed(s.(players := KickPlayer(s.players, id)))
  {
    KickIncreasing(s.players, id);
    KickMembers(s.players, id);
    var r := KickPlayer(s.players, id);
    assert forall i :: 0 <= i < |r| ==> r[i] in r;
  }
}

=== FILE: as_written.dfy ===
/**
 * Six places where GameControllerTools.cpp, read literally, does something
 * other than what its documentation, its callers and the rest of the engine
 * evidently intend. Each is modelled here as written, next to a lemma that
 * exhibits the difference; the rest of the model uses the corrected
 * definitions from the other modules.
 */
module AsWritten {
  import opened Wrappers
  import opened Roster
  import Seqs
  import Circular
  import CardMoves
  import Reactions
  import Damage

  // ---------------------------------------------------------------------
  // damage: `target.getHealth() - damage <= 0` with `damage` a size_t

  /** The width of size_t, in which the subtraction is carried out. */
  const SizeModulus: int := 0x1_0000_0000_0000_0000

  /**
   * The lethality test as compiled: the health is converted to size_t, the
   * difference wraps around, and an unsigned value is `<= 0` only when it is 0.
   */
  predicate LethalAsWritten(health: int, amount: nat) {
    (health - amount) % SizeModulus == 0
  }

  /**
   * For health and damage in the size_t range the test holds exactly when the
   * damage equals the health: a blow that overshoots is not lethal.
   */
  lemma LethalAsWrittenOnlyExact(health: int, amount: nat)
    requires 0 <= health < SizeModulus && amount < SizeModulus
    ensures LethalAsWritten(health, amount) <==> health == amount
  {
    var d := health - amount;
    if d > 0 {
      Circular.ModUnique(d, SizeModulus, 0, d);
    } else if d < 0 {
      Circular.ModUnique(d, SizeModulus, -1, SizeModulus + d);
    }
  }

  /** Health 1 and damage 5: the intended test opens the dying window, the compiled one does not. */
  lemma OverkillIsMissed()
    ensures Damage.Lethal(1, 5) && !LethalAsWritten(1, 5)
  {
    LethalAsWrittenOnlyExact(1, 5);
  }

  // ---------------------------------------------------------------------
  // getPlayerList(exclude_current): `exclude_current && player->id != curr_id`

  /** The loop of getPlayerList as written: an id is kept only when the exclusion is on. */
  function PlayerListAsWritten(ps: seq<Player>, excludeCurrent: bool, currId: nat): (r: seq<nat>)
    ensures |r| <= |ps|
    ensures forall i :: 0 <= i < |r| ==> r[i] != currId
  {
    if ps == [] then []
    else
      var rest := PlayerListAsWritten(ps[1..], excludeCurrent, currId);
      if excludeCurrent && ps[0].id != currId then [ps[0].id] + rest else rest
  }

  /** With the exclusion on, the loop agrees with the intended list. */
  lemma {:induction false} PlayerListAsWrittenExcluding(ps: seq<Player>, currId: nat)
    ensures PlayerListAsWritten(ps, true, currId) == IdsExcept(ps, currId)
    decreases |ps|
  {
    if ps != [] {
      PlayerListAsWrittenExcluding(ps[1..], currId);
    }
  }

  /** With the exclusion off, the loop keeps nobody: the full list is always empty. */
  lemma {:induction false} PlayerListAsWrittenEmpty(ps: seq<Player>, currId: nat)
    ensures PlayerListAsWritten(ps, false, currId) == []
    decreases |ps|
  {
    if ps != [] {
      PlayerListAsWrittenEmpty(ps[1..], currId);
    }
  }

  /** So on any non-empty roster the full list differs from the intended one. */
  lemma FullListIsLost(g: Game)
    requires g.currIdx < |g.players|
    ensures PlayerListAsWritten(g.players, false, g.players[g.currIdx].id) != PlayerList(g, false)
  {
    PlayerListAsWrittenEmpty(g.players, g.players[g.currIdx].id);
  }

  // ---------------------------------------------------------------------
  // waitForReact: `poll_items(target.size())` followed by `emplace_back`

  /** The sockets appended for the targets that are offered the window, as ids. */
  function OfferedItems(g: Game, targets: seq<nat>, allowed: set<CardType>): (r: seq<Option<nat>>)
    ensures |r| <= |targets|
    ensures forall i :: 0 <= i < |r| ==> r[i].Some? && Reactions.Offered(g, r[i].value, allowed)
    ensures forall k :: 0 <= k < |targets| && Reactions.Offered(g, targets[k], allowed) ==> Some(targets[k]) in r
  {
    if targets == [] then []
    else
      var rest := OfferedItems(g, targets[1..], allowed);
      if Reactions.Offered(g, targets[0], allowed) then [Some(targets[0])] + rest else rest
  }

  /**
   * The poll items as built: the vector starts with one empty item per target
   * and the offered sockets are appended after them.
   */
  function PollItemsAsWritten(g: Game, targets: seq<nat>, allowed: set<CardType>): (items: seq<Option<nat>>)
    ensures |targets| <= |items| <= 2 * |targets|
    ensures forall i :: 0 <= i < |targets| ==> items[i].None?
    ensures forall i :: |targets| <= i < |items| ==> items[i].Some? && Reactions.Offered(g, items[i].value, allowed)
    ensures forall k :: 0 <= k < |targets| && Reactions.Offered(g, targets[k], allowed) ==>
              Some(targets[k]) in items[|targets|..]
  {
    seq(|targets|, _ => None) + OfferedItems(g, targets, allowed)
  }

  /** Item `k` holds a socket whose owner sent an allowed play. */
  predicate ItemReady(items: seq<Option<nat>>, allowed: set<CardType>, replies: map<nat, Reactions.Message>, k: nat)
  {
    && k < |items| && items[k].Some? && items[k].value in replies
    && replies[items[k].value].PlayMsg? && replies[items[k].value].kind in allowed
  }

  /** The action read from a ready item `k`, credited to target `k`. */
  function ReadAction(items: seq<Option<nat>>, targets: seq<nat>, replies: map<nat, Reactions.Message>,
                      k: nat): CardAction
    requires k < |targets| && k < |items| && items[k].Some? && items[k].value in replies
    requires replies[items[k].value].PlayMsg?
  {
    var m := replies[items[k].value];
    CardAction(m.cardId, m.kind, targets[k], m.targetId)
  }

  /**
   * The scan as written: item `i` is read for target `i`, and an item counts as
   * ready only when it holds a socket whose player replied. The reply read is
   * that of the item's owner, whereas the code reads `players[target[i]]`
   * (see `ReplierAsWritten`). The difference never shows: the first
   * `|targets|` items never hold a socket, so no item is ever read.
   */
  function ScanItems(items: seq<Option<nat>>, targets: seq<nat>, allowed: set<CardType>,
                     replies: map<nat, Reactions.Message>, i: nat): (r: Option<CardAction>)
    requires i <= |targets| <= |items|
    ensures r.Some? ==> exists k :: i <= k < |targets| && ItemReady(items, allowed, replies, k)
                                    && (forall j :: i <= j < k ==> !ItemReady(items, allowed, replies, j))
                                    && r.value == ReadAction(items, targets, replies, k)
    ensures r.None? <==> forall k :: i <= k < |targets| ==> !ItemReady(items, allowed, replies, k)
    decreases |targets| - i
  {
    if i == |targets| then None
    else if ItemReady(items, allowed, replies, i) then Some(ReadAction(items, targets, replies, i))
    else ScanItems(items, targets, allowed, replies, i + 1)
  }

  /** waitForReact as written. */
  function WaitForReactAsWritten(g: Game, targets: seq<nat>, allowed: set<CardType>,
                                 replies: map<nat, Reactions.Message>): (r: Result<Option<CardAction>, Error>)
    ensures r.Err? <==> exists k :: 0 <= k < |targets| && !Reactions.Known(g, targets[k])
  {
    match Reactions.FirstUnknown(g, targets)
    case Some(k) => Err(UnknownPlayer(targets[k]))
    case None => Ok(ScanItems(PollItemsAsWritten(g, targets, allowed), targets, allowed, replies, 0))
  }

  /** As written, the window never yields a reaction, whatever the players reply. */
  lemma ReactAsWrittenNeverReacts(g: Game, targets: seq<nat>, allowed: set<CardType>,
                                  replies: map<nat, Reactions.Message>)
    ensures WaitForReactAsWritten(g, targets, allowed, replies).Ok? ==>
              WaitForReactAsWritten(g, targets, allowed, replies).value.None?
  {
  }

  /** A two-seat table on which player 1 holds a Peach (card 5) and is at one point. */
  function PeachHolder(): Game {
    Game([Player(1, 1, 4, true, [Card(5, Peach)]), Player(2, 0, 4, true, [])], [], 0, 1)
  }

  /** In that example the intended window yields the Peach and the written one yields nothing. */
  lemma ReactionIsLost()
    ensures var replies := map[1 := Reactions.PlayMsg(5, Peach, 2)];
            && Reactions.WaitForReact(PeachHolder(), [1], {Peach}, replies) == Ok(Some(CardAction(5, Peach, 1, 2)))
            && WaitForReactAsWritten(PeachHolder(), [1], {Peach}, replies) == Ok(None)
  {
    var g := PeachHolder();
    var replies := map[1 := Reactions.PlayMsg(5, Peach, 2)];
    assert FindIndex(g.players, 1) == Some(0);
    assert Card(5, Peach) in g.players[0].hand;
    assert Reactions.ValidReply(g, [1], {Peach}, replies, 0);
    ReactAsWrittenNeverReacts(g, [1], {Peach}, replies);
  }

  // ---------------------------------------------------------------------
  // waitForReact: `players[target[i]]`

  /** The player whose channel is read for target `id`: the one seated at position `id`. */
  function ReplierAsWritten(g: Game, id: nat): (r: Option<nat>)
    ensures r.Some? <==> id < |g.players|
    ensures r.Some? ==> r.value == g.players[id].id
  {
    if id < |g.players| then Some(g.players[id].id) else None
  }

  /** With ids 1 and 2, target 1 is read from the channel of player 2; the lookup by id finds player 1. */
  lemma ReplierIsWrongPlayer()
    ensures ReplierAsWritten(PeachHolder(), 1) == Some(2)
    ensures FindPlayerById(PeachHolder(), 1) == Ok(0) && PeachHolder().players[0].id == 1
  {
  }

  // ---------------------------------------------------------------------
  // waitForCard: `unsigned rep_id = rtn - 1`

  /** How many targets have a message waiting: what zmq::poll returns. */
  function ReadyCount(targets: seq<nat>, round: map<nat, Reactions.Message>): (n: nat)
    ensures n <= |targets|
    ensures n == 0 <==> forall k :: 0 <= k < |targets| ==> targets[k] !in round
  {
    if targets == [] then 0
    else (if targets[0] in round then 1 else 0) + ReadyCount(targets[1..], round)
  }

  /** One poll round as written: the item at position `count - 1` is read. */
  function RoundActionAsWritten(targets: seq<nat>, round: map<nat, Reactions.Message>): (r: Option<Reactions.Action>)
    ensures r.Some? ==> ReadyCount(targets, round) >= 1
    ensures r.Some? ==> var i := ReadyCount(targets, round) - 1;
                        targets[i] in round && r == Reactions.Classify(targets[i], round[targets[i]])
  {
    var n := ReadyCount(targets, round);
    if n == 0 then None
    else if targets[n - 1] in round then Reactions.Classify(targets[n - 1], round[targets[n - 1]])
    else None
  }

  /** Only the second of two targets plays: the intended round finds the play, the written one reads the first. */
  lemma PlayOfSecondIsMissed()
    ensures var round := map[2 := Reactions.PlayMsg(9, Peach, 1)];
            && Reactions.RoundAction([1, 2], round) == Some(Reactions.PlayAction(CardAction(9, Peach, 2, 1)))
            && RoundActionAsWritten([1, 2], round) == None
  {
    var round := map[2 := Reactions.PlayMsg(9, Peach, 1)];
    assert Reactions.FirstReady([1, 2], round) == Some(1);
    assert ReadyCount([1, 2], round) == 1;
  }

  // ---------------------------------------------------------------------
  // removeCard: the card leaves the hand before its type is checked

  /** What a call leaves behind: the state, and whether it threw. */
  datatype Attempt = Attempt(game: Game, outcome: Outcome<Error>)

  /**
   * removeCard as written: the card is taken from the hand first; when the
   * type check then fails, the exception is thrown with the card already gone
   * from the hand and never added to the pile.
   */
  function RemoveCardAsWritten(g: Game, pid: nat, cid: nat, typeCheck: Option<CardType>): (r: Attempt)
    ensures r.outcome.Pass? ==> CardsInPlay(r.game) == CardsInPlay(g)
    ensures r.outcome == Fail(TypeMismatch(cid)) ==>
              exists c :: c in CardsInPlay(g) && c.id == cid && CardsInPlay(r.game) + multiset{c} == CardsInPlay(g)
  {
    match FindIndex(g.players, pid)
    case None => Attempt(g, Fail(UnknownPlayer(pid)))
    case Some(k) =>
      var hand := g.players[k].hand;
      match CardMoves.FindCard(hand, cid)
      case None => Attempt(g, Fail(CardNotInHand(pid, cid)))
      case Some(j) =>
        if typeCheck.Some? && hand[j].kind != typeCheck.value then
          var p2 := g.players[k].(hand := Seqs.RemoveAt(hand, j));
          var g2 := g.(players := g.players[k := p2]);
          HandCardsUpdate(g.players, k, p2);
          assert HandCards(g2.players) + multiset{hand[j]} == HandCards(g.players) by {
            forall c: Card
              ensures (HandCards(g2.players) + multiset{hand[j]})[c] == HandCards(g.players)[c]
            {
              assert (HandCards(g2.players) + multiset(hand))[c] == (HandCards(g.players) + multiset(p2.hand))[c];
              assert (multiset(p2.hand) + multiset{hand[j]})[c] == multiset(hand)[c];
            }
          }
          assert CardsInPlay(g2) + multiset{hand[j]} == CardsInPlay(g);
          Attempt(g2, Fail(TypeMismatch(cid)))
        else
          Attempt(CardMoves.MoveToPile(g, k, j), Pass)
  }

  /** Player 1 claims its Peach is an Oath: the intended call refuses, the written one loses the Peach. */
  lemma MismatchLosesCard()
    ensures CardMoves.RemoveCard(PeachHolder(), 1, 5, Some(PeachGardenOath)) == Err(TypeMismatch(5))
    ensures var r := RemoveCardAsWritten(PeachHolder(), 1, 5, Some(PeachGardenOath));
            r.outcome == Fail(TypeMismatch(5)) && CardsInPlay(r.game) != CardsInPlay(PeachHolder())
  {
    var g := PeachHolder();
    assert FindIndex(g.players, 1) == Some(0);
    assert CardMoves.FindCard(g.players[0].hand, 5) == Some(0);
  }
}

=== FILE: card_moves.dfy ===
/**
 * Moving cards between the draw pile and the hands: drawCard takes the top
 * of the pile, removeCard puts a played card at the bottom of it. Together
 * they never create or lose a card.
 */
module CardMoves {
  import opened Wrappers
  import opened Roster
  import Seqs

  /** `j` is the first position of `hand` holding a card with id `cid`. */
  predicate IsFirstCard(hand: seq<Card>, cid: nat, j: nat)
  {
    Seqs.IsFirstKey(hand, CardId, cid, j)
  }

  /** `hand2` is `hand` with card `c` taken out and the rest in their order. */
  predicate TookFromHand(hand: seq<Card>, hand2: seq<Card>, c: Card)
  {
    && c in hand
    && multiset(hand2) + multiset{c} == multiset(hand)
    && Seqs.IsSubseq(hand2, hand)
  }

  /** `p2` is `p` with card `c` taken out of the hand and nothing else changed. */
  predicate TookCard(p: Player, p2: Player, c: Card)
  {
    p2 == p.(hand := p2.hand) && TookFromHand(p.hand, p2.hand, c)
  }

  /**
   * The hands of `g2` are those of `g`, except that card `c` has left the hand
   * of the first seat whose player is `pid`.
   */
  ghost predicate PlayedFrom(g: Game, g2: Game, pid: nat, c: Card)
  {
    && |g2.players| == |g.players|
    && exists k: nat :: IsFirstSeat(g.players, pid, k) && TookFromHand(g.players[k].hand, g2.players[k].hand, c)
                        && forall i :: 0 <= i < |g.players| && i != k ==> g2.players[i].hand == g.players[i].hand
  }

  /** A later change that leaves every hand alone keeps the account of where the card came from. */
  lemma PlayedFromSameHands(g: Game, g1: Game, g2: Game, pid: nat, c: Card)
    requires PlayedFrom(g, g1, pid, c)
    requires |g2.players| == |g1.players|
    requires forall i :: 0 <= i < |g1.players| ==> g2.players[i].hand == g1.players[i].hand
    ensures PlayedFrom(g, g2, pid, c)
  {
    var k: nat :| IsFirstSeat(g.players, pid, k) && TookFromHand(g.players[k].hand, g1.players[k].hand, c)
                  && forall i :: 0 <= i < |g.players| && i != k ==> g1.players[i].hand == g.players[i].hand;
    assert g2.players[k].hand == g1.players[k].hand;
  }

  /** The removal succeeds: the player exists, holds the card, and the card has the expected type. */
  ghost predicate CanRemove(g: Game, pid: nat, cid: nat, typeCheck: Option<CardType>)
  {
    exists k: nat, j: nat :: IsFirstSeat(g.players, pid, k) && IsFirstCard(g.players[k].hand, cid, j)
                             && (typeCheck.None? || g.players[k].hand[j].kind == typeCheck.value)
  }

  /** drawCard: the top card of a non-empty pile, and the pile without it. */
  function DrawCard(g: Game): (r: (Card, Game))
    requires g.pile != []
    ensures [r.0] + r.1.pile == g.pile
    ensures r.1 == g.(pile := r.1.pile)
    ensures CardsInPlay(g) == CardsInPlay(r.1) + multiset{r.0}
  {
    assert g.pile == [g.pile[0]] + g.pile[1..];
    (g.pile[0], g.(pile := g.pile[1..]))
  }

  /** Position of the first card of `hand` with id `cid`, if any. */
  function FindCard(hand: seq<Card>, cid: nat): (r: Option<nat>)
    ensures r.Some? ==> IsFirstCard(hand, cid, r.value)
    ensures r.None? <==> forall c :: c in hand ==> c.id != cid
  {
    if hand == [] then None
    else if hand[0].id == cid then Some(0)
    else match FindCard(hand[1..], cid)
      case None => None
      case Some(j) => Some(j + 1)
  }

  /** Card `j` of the player at seat `k` leaves the hand for the bottom of the pile. */
  function MoveToPile(g: Game, k: nat, j: nat): (g2: Game)
    requires k < |g.players| && j < |g.players[k].hand|
    ensures g2.currIdx == g.currIdx && g2.playingId == g.playingId
    ensures |g2.players| == |g.players| && g2.pile == g.pile + [g.players[k].hand[j]]
    ensures TookCard(g.players[k], g2.players[k], g.players[k].hand[j])
    ensures forall i :: 0 <= i < |g.players| && i != k ==> g2.players[i] == g.players[i]
    ensures CardsInPlay(g2) == CardsInPlay(g)
  {
    var p := g.players[k];
    var p2 := p.(hand := Seqs.RemoveAt(p.hand, j));
    Seqs.RemoveAtIsSubseq(p.hand, j);
    var g2 := g.(players := g.players[k := p2], pile := g.pile + [p.hand[j]]);
    HandCardsUpdate(g.players, k, p2);
    assert multiset(g2.pile) == multiset(g.pile) + multiset{p.hand[j]};
    assert multiset(p2.hand) + multiset{p.hand[j]} == multiset(p.hand);
    assert HandCards(g2.players) + multiset(p.hand) == HandCards(g.players) + multiset(p2.hand);
    assert HandCards(g2.players) + multiset{p.hand[j]} == HandCards(g.players) by {
      forall c: Card
        ensures (HandCards(g2.players) + multiset{p.hand[j]})[c] == HandCards(g.players)[c]
      {
        assert (HandCards(g2.players) + multiset(p.hand))[c] == (HandCards(g.players) + multiset(p2.hand))[c];
        assert (multiset(p2.hand) + multiset{p.hand[j]})[c] == multiset(p.hand)[c];
      }
    }
    g2
  }

  /**
   * removeCard(player_id, card_id, type_check): take card `cid` out of the
   * hand of player `pid` and put it at the bottom of the pile, provided its
   * type is `typeCheck` when one is given.
   */
  function RemoveCard(g: Game, pid: nat, cid: nat, typeCheck: Option<CardType>): (r: Result<Game, Error>)
    ensures r.Err? ==> r.error in {UnknownPlayer(pid), CardNotInHand(pid, cid), TypeMismatch(cid)}
    ensures r.Ok? <==> CanRemove(g, pid, cid, typeCheck)
    ensures r.Ok? ==> r.value.currIdx == g.currIdx && r.value.playingId == g.playingId
    ensures r.Ok? ==> |r.value.players| == |g.players| && |r.value.pile| == |g.pile| + 1
                      && r.value.pile[..|g.pile|] == g.pile
    ensures r.Ok? ==> var c := r.value.pile[|g.pile|];
                      && c.id == cid
                      && (typeCheck.Some? ==> c.kind == typeCheck.value)
                      && exists k: nat ::
                           && IsFirstSeat(g.players, pid, k)
                           && TookCard(g.players[k], r.value.players[k], c)
                           && (exists j: nat :: IsFirstCard(g.players[k].hand, cid, j) && c == g.players[k].hand[j])
                           && forall i :: 0 <= i < |g.players| && i != k ==> r.value.players[i] == g.players[i]
    ensures r.Ok? ==> CardsInPlay(r.value) == CardsInPlay(g)
  {
    match FindIndex(g.players, pid)
    case None =>
      assert forall k: nat :: !IsFirstSeat(g.players, pid, k);
      Err(UnknownPlayer(pid))
    case Some(k) =>
      Seqs.FirstKeyOnly(g.players, PlayerId, pid, k);
      var hand := g.players[k].hand;
      match FindCard(hand, cid)
      case None => Err(CardNotInHand(pid, cid))
      case Some(j) =>
        Seqs.FirstKeyOnly(hand, CardId, cid, j);
        if typeCheck.Some? && hand[j].kind != typeCheck.value then
          Err(TypeMismatch(cid))
        else
          var g2 := MoveToPile(g, k, j);
          assert g2.pile[..|g.pile|] == g.pile && g2.pile[|g.pile|] == hand[j];
          assert IsFirstSeat(g.players, pid, k) && TookCard(g.players[k], g2.players[k], hand[j]);
          assert IsFirstCard(hand, cid, j) && g2.pile[|g.pile|] == hand[j];
          Ok(g2)
  }

  /** Which of the three errors removeCard raises, and exactly when. */
  lemma RemoveCardErrors(g: Game, pid: nat, cid: nat, typeCheck: Option<CardType>)
    ensures RemoveCard(g, pid, cid, typeCheck) == Err(UnknownPlayer(pid)) <==>
              forall k :: 0 <= k < |g.players| ==> g.players[k].id != pid
    ensures RemoveCard(g, pid, cid, typeCheck) == Err(CardNotInHand(pid, cid)) <==>
              exists k: nat :: IsFirstSeat(g.players, pid, k) && forall c :: c in g.players[k].hand ==> c.id != cid
    ensures RemoveCard(g, pid, cid, typeCheck) == Err(TypeMismatch(cid)) <==>
              exists k: nat, j: nat :: IsFirstSeat(g.players, pid, k) && IsFirstCard(g.players[k].hand, cid, j)
                                       && typeCheck.Some? && g.players[k].hand[j].kind != typeCheck.value
  {
    match FindIndex(g.players, pid)
    case None =>
      assert forall k: nat :: !IsFirstSeat(g.players, pid, k);
    case Some(k) =>
      assert IsFirstSeat(g.players, pid, k);
      match FindCard(g.players[k].hand, cid)
      case None =>
      case Some(j) =>
        assert IsFirstCard(g.players[k].hand, cid, j);
  }

  /** The removeCard overload for a played card: the card's declared type must match. */
  function RemovePlayedCard(g: Game, a: CardAction): (r: Result<Game, Error>)
    ensures r.Ok? <==> CanRemove(g, a.sourceId, a.cardId, Some(a.kind))
    ensures r.Ok? ==> |r.value.pile| == |g.pile| + 1 && r.value.pile == g.pile + [Card(a.cardId, a.kind)]
    ensures r.Ok? ==> |r.value.players| == |g.players| && CardsInPlay(r.value) == CardsInPlay(g)
    ensures r.Ok? ==> r.value.currIdx == g.currIdx && r.value.playingId == g.playingId
    ensures r.Ok? ==> forall i :: 0 <= i < |g.players| ==>
                        r.value.players[i] == g.players[i].(hand := r.value.players[i].hand)
    ensures r.Ok? ==> PlayedFrom(g, r.value, a.sourceId, Card(a.cardId, a.kind))
  {
    var r := RemoveCard(g, a.sourceId, a.cardId, Some(a.kind));
    if r.Ok? then
      assert r.value.pile == r.value.pile[..|g.pile|] + [r.value.pile[|g.pile|]];
      assert r.value.pile[|g.pile|] == Card(a.cardId, a.kind);
      r
    else r
  }
}

=== FILE: circular.dfy ===
/** Clockwise positions around a ring of `n` seats, as the roster is walked. */
module Circular {

  /** Seat reached from `from` after `k` clockwise steps on a ring of `n` seats. */
  function At(from: nat, k: nat, n: nat): (r: nat)
    requires n > 0
    ensures r < n
  {
    (from + k) % n
  }

  /** A product with a non-zero factor is at least the other factor in size. */
  lemma MulBounds(n: int, d: int)
    requires n > 0
    ensures d >= 1 ==> n * d >= n
    ensures d <= -1 ==> n * d <= -n
  {
    if d >= 1 {
      assert n * d == n * (d - 1) + n;
      assert n * (d - 1) >= 0;
    } else if d <= -1 {
      assert n * d == n * (d + 1) - n;
      assert n * (-(d + 1)) >= 0;
    }
  }

  /** The remainder is the unique `R` in `[0, n)` with `a == n * Q + R`. */
  lemma ModUnique(a: int, n: int, Q: int, R: int)
    requires n > 0 && 0 <= R < n && a == n * Q + R
    ensures a % n == R
  {
    var q := a / n;
    MulBounds(n, q - Q);
    assert n * (q - Q) == n * q - n * Q;
  }

  /** Seat arithmetic only depends on the start seat modulo `n`. */
  lemma AtCanonical(from: nat, k: nat, n: nat)
    requires n > 0
    ensures At(from, k, n) == (from % n + k) % n
  {
    var q := from / n;
    var c := from % n;
    var t := (c + k) % n;
    var p := (c + k) / n;
    assert from + k == n * (q + p) + t by {
      assert from == n * q + c;
      assert c + k == n * p + t;
      assert n * (q + p) == n * q + n * p;
    }
    ModUnique(from + k, n, q + p, t);
  }

  /** Seat reached from `from` after `k` counter-clockwise steps (to the left). */
  function LeftAt(from: nat, k: nat, n: nat): (r: nat)
    requires k <= n && n > 0
    ensures r < n
  {
    At(from, n - k, n)
  }

  /** Between one and `n - 1` steps always leave the start seat. */
  lemma AtLeavesStart(from: nat, k: nat, n: nat)
    requires n > 0
    ensures 1 <= k < n ==> At(from, k, n) != from % n
  {
    if 1 <= k < n {
      AtCanonical(from, k, n);
      var c := from % n;
      if c + k < n {
        ModUnique(c + k, n, 0, c + k);
      } else {
        ModUnique(c + k, n, 1, c + k - n);
      }
    }
  }

  /** Number of clockwise steps from `from` to seat `j`; a full turn when `j` is the start. */
  function StepsTo(from: nat, j: nat, n: nat): (k: nat)
    requires j < n
    ensures 1 <= k <= n
    ensures At(from, k, n) == j
    ensures k == n <==> j == from % n
  {
    var c := from % n;
    var k := if j > c then j - c else j + n - c;
    AtCanonical(from, k, n);
    ModUnique(c + k, n, if j > c then 0 else 1, j);
    k
  }
}

=== FILE: damage.dfy ===
/**
 * damage: the health state machine of the turn engine. A blow that leaves
 * the target above zero just lowers its health; a lethal one opens a dying
 * window in which another player may save the target with a Peach or a
 * Peach Garden Oath, and without a save the target dies and its hand goes to
 * the pile.
 */
module Damage {
  import opened Wrappers
  import opened Roster
  import CardMoves
  import Reactions

  /** What the engine announces to every player while resolving a blow. */
  datatype Notice = Dying(playerId: nat) | Dead(playerId: nat)

  /** The controller state after a blow, and the notices broadcast on the way. */
  datatype Effect = Effect(game: Game, notices: seq<Notice>)

  /** Card types that may answer the dying window. */
  const DyingCards: set<CardType> := {Peach, PeachGardenOath}

  /** Health of a player after a Peach Garden Oath: one more, never above the maximum. */
  function Healed(health: int, maxHealth: int): (h: int)
    ensures health <= h <= health + 1
    ensures h == health + 1 <==> health < maxHealth
    ensures health <= maxHealth ==> h <= maxHealth
  {
    if health < maxHealth then health + 1 else health
  }

  /** Every player's health is at most its maximum, and the maximum is at least 1. */
  predicate HealthInRange(g: Game) {
    forall i :: 0 <= i < |g.players| ==> 1 <= g.players[i].maxHealth && g.players[i].health <= g.players[i].maxHealth
  }

  /** The player at seat `k` gets health `h`; nothing else changes. */
  function SetHealth(g: Game, k: nat, h: int): (g2: Game)
    requires k < |g.players|
    ensures g2 == g.(players := g2.players) && |g2.players| == |g.players|
    ensures g2.players[k] == g.players[k].(health := h)
    ensures forall i :: 0 <= i < |g.players| && i != k ==> g2.players[i] == g.players[i]
    ensures CardsInPlay(g2) == CardsInPlay(g)
  {
    var g2 := g.(players := g.players[k := g.players[k].(health := h)]);
    HandCardsSameHands(g.players, g2.players);
    g2
  }

  /** The Peach Garden Oath heal: every player below the maximum gains one point. */
  function HealAll(g: Game): (g2: Game)
    ensures g2 == g.(players := g2.players) && |g2.players| == |g.players|
    ensures forall i :: 0 <= i < |g.players| ==>
              g2.players[i] == g.players[i].(health := Healed(g.players[i].health, g.players[i].maxHealth))
    ensures CardsInPlay(g2) == CardsInPlay(g)
  {
    var ps := seq(|g.players|, i requires 0 <= i < |g.players| =>
                  g.players[i].(health := Healed(g.players[i].health, g.players[i].maxHealth)));
    HandCardsSameHands(g.players, ps);
    g.(players := ps)
  }

  /** die(): the player at seat `k` is no longer alive and its whole hand goes to the pile. */
  function Die(g: Game, k: nat): (g2: Game)
    requires k < |g.players|
    ensures g2.currIdx == g.currIdx && g2.playingId == g.playingId && |g2.players| == |g.players|
    ensures g2.players[k] == g.players[k].(alive := false, hand := [])
    ensures g2.pile == g.pile + g.players[k].hand
    ensures forall i :: 0 <= i < |g.players| && i != k ==> g2.players[i] == g.players[i]
    ensures CardsInPlay(g2) == CardsInPlay(g)
  {
    var p := g.players[k];
    var p2 := p.(alive := false, hand := []);
    var g2 := g.(players := g.players[k := p2], pile := g.pile + p.hand);
    HandCardsUpdate(g.players, k, p2);
    assert multiset(g2.pile) == multiset(g.pile) + multiset(p.hand);
    assert HandCards(g2.players) + multiset(p.hand) == HandCards(g.players);
    g2
  }

  /** The dying window: every player but the current one may answer with a saving card. */
  function DyingReaction(g: Game, replies: map<nat, Reactions.Message>): (r: Result<Option<CardAction>, Error>)
    requires g.currIdx < |g.players|
    ensures r.Ok? && r.value.Some? ==> r.value.value.kind in DyingCards
  {
    Reactions.WaitForReact(g, PlayerList(g, true), DyingCards, replies)
  }

  /** A blow of `amount` is lethal when it leaves no health; `health - amount` is signed arithmetic. */
  predicate Lethal(health: int, amount: nat) {
    health - amount <= 0
  }

  /** The Oath's effect on the dying target at seat `k`: put at zero, then everyone below the maximum heals. */
  function ZeroThenHeal(g: Game, k: nat): (g2: Game)
    requires k < |g.players|
    ensures g2 == g.(players := g2.players) && |g2.players| == |g.players|
    ensures g2.players[k] == g.players[k].(health := Healed(0, g.players[k].maxHealth))
    ensures forall i :: 0 <= i < |g.players| && i != k ==>
              g2.players[i] == g.players[i].(health := Healed(g.players[i].health, g.players[i].maxHealth))
    ensures CardsInPlay(g2) == CardsInPlay(g)
  {
    HealAll(SetHealth(g, k, 0))
  }

  /** The Oath's heal after a change that touched only hands, described against the state before that change. */
  lemma ZeroThenHealAfterHands(g: Game, g1: Game, k: nat)
    requires k < |g.players| && |g1.players| == |g.players|
    requires forall i :: 0 <= i < |g.players| ==> g1.players[i] == g.players[i].(hand := g1.players[i].hand)
    ensures var g2 := ZeroThenHeal(g1, k);
            && g2.players[k] == g.players[k].(health := Healed(0, g.players[k].maxHealth), hand := g2.players[k].hand)
            && forall i :: 0 <= i < |g.players| && i != k ==>
                 g2.players[i] == g.players[i].(health := Healed(g.players[i].health, g.players[i].maxHealth),
                                                hand := g2.players[i].hand)
  {
    var g2 := ZeroThenHeal(g1, k);
    forall i | 0 <= i < |g.players| && i != k
      ensures g2.players[i] == g.players[i].(health := Healed(g.players[i].health, g.players[i].maxHealth),
                                             hand := g2.players[i].hand)
    {
      assert g1.players[i] == g.players[i].(hand := g1.players[i].hand);
    }
  }

  /** A Peach saves the target at seat `k`: the card goes to the pile and the target is back at one point. */
  function PeachSave(g: Game, k: nat, a: CardAction): (r: Result<Game, Error>)
    requires k < |g.players| && a.kind == Peach
    ensures r.Ok? <==> CardMoves.CanRemove(g, a.sourceId, a.cardId, Some(Peach))
    ensures r.Ok? ==> r.value.pile == g.pile + [Card(a.cardId, Peach)]
    ensures r.Ok? ==> r.value.currIdx == g.currIdx && r.value.playingId == g.playingId
                      && |r.value.players| == |g.players|
    ensures r.Ok? ==> r.value.players[k] == g.players[k].(health := 1, hand := r.value.players[k].hand)
    ensures r.Ok? ==> forall i :: 0 <= i < |g.players| && i != k ==>
                        r.value.players[i] == g.players[i].(hand := r.value.players[i].hand)
    ensures r.Ok? ==> CardsInPlay(r.value) == CardsInPlay(g)
  {
    var removed := CardMoves.RemovePlayedCard(g, a);
    if removed.Err? then Err(removed.error)
    else
      var g1 := removed.value;
      var g2 := SetHealth(g1, k, 1);
      assert g2.players[k] == g.players[k].(health := 1, hand := g2.players[k].hand);
      assert forall i :: 0 <= i < |g.players| && i != k ==> g2.players[i] == g1.players[i];
      assert CardsInPlay(g2) == CardsInPlay(g);
      Ok(g2)
  }

  /**
   * A Peach Garden Oath saves the target at seat `k`: the card goes to the
   * pile, the target is put at zero, then every player below the maximum
   * gains one point.
   */
  function OathSave(g: Game, k: nat, a: CardAction): (r: Result<Game, Error>)
    requires k < |g.players| && a.kind == PeachGardenOath
    ensures r.Ok? <==> CardMoves.CanRemove(g, a.sourceId, a.cardId, Some(PeachGardenOath))
    ensures r.Ok? ==> r.value.pile == g.pile + [Card(a.cardId, PeachGardenOath)]
    ensures r.Ok? ==> r.value.currIdx == g.currIdx && r.value.playingId == g.playingId
                      && |r.value.players| == |g.players|
    ensures r.Ok? ==> r.value.players[k] == g.players[k].(health := Healed(0, g.players[k].maxHealth),
                                                           hand := r.value.players[k].hand)
    ensures r.Ok? ==> forall i :: 0 <= i < |g.players| && i != k ==>
                        r.value.players[i] == g.players[i].(health := Healed(g.players[i].health, g.players[i].maxHealth),
                                                            hand := r.value.players[i].hand)
    ensures r.Ok? ==> CardsInPlay(r.value) == CardsInPlay(g)
  {
    var removed := CardMoves.RemovePlayedCard(g, a);
    if removed.Err? then Err(removed.error)
    else
      var g1 := removed.value;
      var g2 := ZeroThenHeal(g1, k);
      ZeroThenHealAfterHands(g, g1, k);
      Ok(g2)
  }

  /** The Peach leaves the hand of the healer's first seat and no other hand changes. */
  lemma PeachSaveFrame(g: Game, k: nat, a: CardAction)
    requires k < |g.players| && a.kind == Peach
    ensures PeachSave(g, k, a).Ok? ==>
              CardMoves.PlayedFrom(g, PeachSave(g, k, a).value, a.sourceId, Card(a.cardId, Peach))
  {
    var removed := CardMoves.RemovePlayedCard(g, a);
    if removed.Ok? {
      var g1 := removed.value;
      var g2 := SetHealth(g1, k, 1);
      assert PeachSave(g, k, a) == Ok(g2);
      assert forall i :: 0 <= i < |g1.players| && i != k ==> g2.players[i] == g1.players[i];
      CardMoves.PlayedFromSameHands(g, g1, g2, a.sourceId, Card(a.cardId, Peach));
    }
  }

  /** The Oath leaves the hand of the healer's first seat and no other hand changes. */
  lemma OathSaveFrame(g: Game, k: nat, a: CardAction)
    requires k < |g.players| && a.kind == PeachGardenOath
    ensures OathSave(g, k, a).Ok? ==>
              CardMoves.PlayedFrom(g, OathSave(g, k, a).value, a.sourceId, Card(a.cardId, PeachGardenOath))
  {
    var removed := CardMoves.RemovePlayedCard(g, a);
    if removed.Ok? {
      var g1 := removed.value;
      var g2 := ZeroThenHeal(g1, k);
      assert OathSave(g, k, a) == Ok(g2);
      forall i | 0 <= i < |g1.players|
        ensures g2.players[i].hand == g1.players[i].hand
      {
        if i != k {
          assert g2.players[i] == g1.players[i].(health := Healed(g1.players[i].health, g1.players[i].maxHealth));
        }
      }
      CardMoves.PlayedFromSameHands(g, g1, g2, a.sourceId, Card(a.cardId, PeachGardenOath));
    }
  }

  /** The Peach never lifts anyone above the maximum. */
  lemma PeachKeepsHealthInRange(g: Game, k: nat, a: CardAction)
    requires k < |g.players| && a.kind == Peach
    ensures HealthInRange(g) && PeachSave(g, k, a).Ok? ==> HealthInRange(PeachSave(g, k, a).value)
  {
  }

  /** The Oath never lifts anyone above the maximum. */
  lemma OathKeepsHealthInRange(g: Game, k: nat, a: CardAction)
    requires k < |g.players| && a.kind == PeachGardenOath
    ensures HealthInRange(g) && OathSave(g, k, a).Ok? ==> HealthInRange(OathSave(g, k, a).value)
  {
  }

  /**
   * The save of a dying target at seat `k` by reaction `a`; a reaction of a
   * type that is neither a Peach nor a Peach Garden Oath changes nothing.
   */
  function Rescue(g: Game, k: nat, a: CardAction): (r: Result<Game, Error>)
    requires k < |g.players|
    ensures a.kind !in DyingCards ==> r == Ok(g)
    // a save succeeds exactly when the healer can discard the card, which lands on the pile
    ensures a.kind in DyingCards ==> (r.Ok? <==> CardMoves.CanRemove(g, a.sourceId, a.cardId, Some(a.kind)))
    ensures r.Ok? && a.kind in DyingCards ==> r.value.pile == g.pile + [Card(a.cardId, a.kind)]
    ensures r.Ok? && a.kind in DyingCards ==> CardMoves.PlayedFrom(g, r.value, a.sourceId, Card(a.cardId, a.kind))
    ensures r.Ok? ==> r.value.currIdx == g.currIdx && r.value.playingId == g.playingId
    ensures r.Ok? ==> |r.value.players| == |g.players| && CardsInPlay(r.value) == CardsInPlay(g)
    // a Peach puts the target at one and touches nobody else's health
    ensures r.Ok? && a.kind == Peach ==>
              && r.value.players[k] == g.players[k].(health := 1, hand := r.value.players[k].hand)
              && forall i :: 0 <= i < |g.players| && i != k ==>
                   r.value.players[i] == g.players[i].(hand := r.value.players[i].hand)
    // an Oath heals the target from zero and every other player by the Oath rule
    ensures r.Ok? && a.kind == PeachGardenOath ==>
              && r.value.players[k] == g.players[k].(health := Healed(0, g.players[k].maxHealth),
                                                     hand := r.value.players[k].hand)
              && forall i :: 0 <= i < |g.players| && i != k ==>
                   r.value.players[i] == g.players[i].(health := Healed(g.players[i].health, g.players[i].maxHealth),
                                                       hand := r.value.players[i].hand)
    ensures r.Ok? && HealthInRange(g) ==> HealthInRange(r.value)
    ensures r.Ok? && a.kind in DyingCards && 1 <= g.players[k].maxHealth ==> r.value.players[k].health == 1
  {
    if a.kind == Peach then
      PeachSaveFrame(g, k, a);
      PeachKeepsHealthInRange(g, k, a);
      PeachSave(g, k, a)
    else if a.kind == PeachGardenOath then
      OathSaveFrame(g, k, a);
      OathKeepsHealthInRange(g, k, a);
      OathSave(g, k, a)
    else Ok(g)
  }

  /**
   * damage(player_id, damage). The seat of the target is the first roster
   * entry with its id; `replies` are the answers to the dying window, if one
   * opens.
   */
  function Damage(g: Game, pid: nat, amount: nat, replies: map<nat, Reactions.Message>): (r: Result<Effect, Error>)
    requires CursorValid(g)
    // an unknown or already dead target is an error and nothing happens
    ensures FindIndex(g.players, pid).None? ==> r == Err(UnknownPlayer(pid))
    ensures var s := FindIndex(g.players, pid);
            s.Some? && !g.players[s.value].alive ==> r == Err(PlayerDead(pid))
    // a blow that is not lethal lowers the health by exactly `amount` and changes nothing else
    ensures var s := FindIndex(g.players, pid);
            s.Some? && g.players[s.value].alive && !Lethal(g.players[s.value].health, amount) ==>
              && r.Ok? && r.value.notices == []
              && r.value.game == g.(players := r.value.game.players)
              && |r.value.game.players| == |g.players|
              && r.value.game.players[s.value] == g.players[s.value].(health := g.players[s.value].health - amount)
              && forall i :: 0 <= i < |g.players| && i != s.value ==> r.value.game.players[i] == g.players[i]
    // a lethal blow is always announced first
    ensures var s := FindIndex(g.players, pid);
            s.Some? && g.players[s.value].alive && Lethal(g.players[s.value].health, amount) && r.Ok? ==>
              |r.value.notices| >= 1 && r.value.notices[0] == Dying(pid)
    // a save is resolved by Rescue
    ensures var s := FindIndex(g.players, pid);
            s.Some? && g.players[s.value].alive && Lethal(g.players[s.value].health, amount)
            && DyingReaction(g, replies).Ok? && DyingReaction(g, replies).value.Some? ==>
              var saved := Rescue(g, s.value, DyingReaction(g, replies).value.value);
              && (r.Ok? <==> saved.Ok?)
              && (r.Ok? ==> r.value == Effect(saved.value, [Dying(pid)]))
    // no card is created or lost, and health stays within its bounds
    ensures r.Ok? ==> CardsInPlay(r.value.game) == CardsInPlay(g)
    ensures r.Ok? && HealthInRange(g) ==> HealthInRange(r.value.game)
  {
    var seat := FindIndex(g.players, pid);
    if seat.None? then Err(UnknownPlayer(pid))
    else
      var k := seat.value;
      var target := g.players[k];
      if !target.alive then
        Err(PlayerDead(pid))
      else if !Lethal(target.health, amount) then
        Ok(Effect(SetHealth(g, k, target.health - amount), []))
      else
        var reaction := DyingReaction(g, replies);
        if reaction.Err? then Err(reaction.error)
        else if reaction.value.None? then Ok(Effect(Die(g, k), [Dying(pid), Dead(pid)]))
        else
          var saved := Rescue(g, k, reaction.value.value);
          if saved.Err? then Err(saved.error) else Ok(Effect(saved.value, [Dying(pid)]))
  }

  /** Nobody saves the target of a lethal blow: it dies and its whole hand goes to the pile. */
  lemma DamageKills(g: Game, pid: nat, amount: nat, replies: map<nat, Reactions.Message>)
    requires CursorValid(g)
    ensures var s := FindIndex(g.players, pid);
            s.Some? && g.players[s.value].alive && Lethal(g.players[s.value].health, amount)
            && DyingReaction(g, replies).Ok? && DyingReaction(g, replies).value.None? ==>
              var r := Damage(g, pid, amount, replies);
              && r.Ok? && r.value.notices == [Dying(pid), Dead(pid)]
              && |r.value.game.players| == |g.players|
              && !r.value.game.players[s.value].alive
              && r.value.game.players[s.value].hand == []
              && r.value.game.pile == g.pile + g.players[s.value].hand
              && forall i :: 0 <= i < |g.players| && i != s.value ==> r.value.game.players[i] == g.players[i]
  {
  }

  /**
   * After any blow the target is either dead or back above zero: a blow that
   * would leave it at zero or below always opens the dying window.
   */
  lemma DamageLeavesTargetPositive(g: Game, pid: nat, amount: nat, replies: map<nat, Reactions.Message>)
    requires CursorValid(g) && HealthInRange(g)
    ensures var s := FindIndex(g.players, pid);
            var r := Damage(g, pid, amount, replies);
            r.Ok? && s.Some? ==> |r.value.game.players| == |g.players|
                                 && (r.value.game.players[s.value].alive ==> r.value.game.players[s.value].health >= 1)
  {
    var s := FindIndex(g.players, pid);
    var r := Damage(g, pid, amount, replies);
    if r.Ok? && s.Some? && g.players[s.value].alive && Lethal(g.players[s.value].health, amount) {
      var k := s.value;
      assert 1 <= g.players[k].maxHealth;
      var reaction := DyingReaction(g, replies);
      if reaction.value.None? {
        DamageKills(g, pid, amount, replies);
      }
    }
  }
}

=== FILE: reactions.dfy ===
/**
 * The two waits of the turn engine with their sockets replaced by the replies
 * the players sent: collecting one action from the player in turn
 * (waitForCard) and the simultaneous react-or-pass window (waitForReact).
 */
module Reactions {
  import opened Wrappers
  import opened Roster

  /** A command received from a player's channel, already decoded. */
  datatype Message =
    | PlayMsg(cardId: nat, kind: CardType, targetId: nat)  // ACTION_PLAY
    | PassMsg(discarded: seq<nat>)                         // ACTION_PASS with the discarded card ids
    | OtherMsg                                             // any other command type
    | EmptyMsg                                             // the receive produced no command

  /** What waitForCard hands back: a played card or a discard. */
  datatype Action =
    | PlayAction(play: CardAction)
    | DiscardAction(sourceId: nat, cardIds: set<nat>)

  /** Some roster entry carries the id. */
  predicate Known(g: Game, id: nat) {
    FindIndex(g.players, id).Some?
  }

  /** Position of the first target that is not on the roster, if any. */
  function FirstUnknown(g: Game, targets: seq<nat>): (r: Option<nat>)
    ensures r.Some? ==> r.value < |targets| && !Known(g, targets[r.value])
    ensures r.Some? ==> forall k :: 0 <= k < r.value ==> Known(g, targets[k])
    ensures r.None? <==> forall k :: 0 <= k < |targets| ==> Known(g, targets[k])
  {
    if targets == [] then None
    else if !Known(g, targets[0]) then Some(0)
    else match FirstUnknown(g, targets[1..])
      case None => None
      case Some(k) => Some(k + 1)
  }

  /**
   * The message classification of waitForCard: a play becomes a card action
   * and a pass a discard, both credited to the player the message came from;
   * anything else is no action and the wait goes on.
   */
  function Classify(source: nat, m: Message): (r: Option<Action>)
    ensures r.Some? <==> m.PlayMsg? || m.PassMsg?
    ensures r.Some? && r.value.PlayAction? ==> m.PlayMsg? && r.value.play.sourceId == source
                                                && r.value.play.cardId == m.cardId && r.value.play.kind == m.kind
                                                && r.value.play.targetId == m.targetId
    ensures r.Some? && r.value.DiscardAction? ==> m.PassMsg? && r.value.sourceId == source
                                                   && forall x :: x in r.value.cardIds <==> x in m.discarded
  {
    match m
    case PlayMsg(cid, kind, tid) => Some(PlayAction(CardAction(cid, kind, source, tid)))
    case PassMsg(ds) => Some(DiscardAction(source, set x | x in ds))
    case OtherMsg => None
    case EmptyMsg => None
  }

  /**
   * Classification loses nothing but the order and repetition of a pass list:
   * an action names its sender, and two messages that give the same action
   * said the same thing.
   */
  lemma ClassifyLossless(s1: nat, m1: Message, s2: nat, m2: Message)
    requires Classify(s1, m1).Some? && Classify(s1, m1) == Classify(s2, m2)
    ensures s1 == s2
    ensures m1.PlayMsg? ==> m1 == m2
    ensures m1.PassMsg? ==> m2.PassMsg? && forall x :: x in m1.discarded <==> x in m2.discarded
  {
  }

  /** `i` is the first target whose channel has a message waiting in this poll round. */
  predicate IsFirstReady(targets: seq<nat>, round: map<nat, Message>, i: nat)
  {
    i < |targets| && targets[i] in round && forall k :: 0 <= k < i ==> targets[k] !in round
  }

  /** The first target, in target order, whose channel is ready. */
  function FirstReady(targets: seq<nat>, round: map<nat, Message>): (r: Option<nat>)
    ensures r.Some? ==> IsFirstReady(targets, round, r.value)
    ensures r.None? <==> forall k :: 0 <= k < |targets| ==> targets[k] !in round
  {
    if targets == [] then None
    else if targets[0] in round then Some(0)
    else match FirstReady(targets[1..], round)
      case None => None
      case Some(k) => Some(k + 1)
  }

  /** What one poll round yields: the classified message of the first ready target. */
  function RoundAction(targets: seq<nat>, round: map<nat, Message>): (r: Option<Action>)
    ensures r.Some? <==> exists i: nat :: IsFirstReady(targets, round, i)
                                         && (round[targets[i]].PlayMsg? || round[targets[i]].PassMsg?)
    ensures r.Some? ==> exists i: nat :: IsFirstReady(targets, round, i) && r == Classify(targets[i], round[targets[i]])
  {
    match FirstReady(targets, round)
    case None => None
    case Some(i) => Classify(targets[i], round[targets[i]])
  }

  /** Round `n` is the first of `rounds` that yields an action. */
  predicate IsFirstActionRound(targets: seq<nat>, rounds: seq<map<nat, Message>>, n: int) {
    && 0 <= n < |rounds|
    && RoundAction(targets, rounds[n]).Some?
    && forall m :: 0 <= m < n ==> RoundAction(targets, rounds[m]).None?
  }

  /**
   * waitForCard: every target must be on the roster; then the poll rounds
   * before the turn deadline are taken in order and the first one that yields
   * an action wins; when none does, the wait ends without an action.
   */
  method WaitForCard(g: Game, targets: seq<nat>, rounds: seq<map<nat, Message>>)
    returns (r: Result<Option<Action>, Error>)
    ensures r.Err? <==> exists k :: 0 <= k < |targets| && !Known(g, targets[k])
    ensures r.Err? ==> exists k :: 0 <= k < |targets| && !Known(g, targets[k]) && r.error == UnknownPlayer(targets[k])
    ensures r == Ok(None) <==> (forall k :: 0 <= k < |targets| ==> Known(g, targets[k]))
                               && forall n :: 0 <= n < |rounds| ==> RoundAction(targets, rounds[n]).None?
    ensures r.Ok? && r.value.Some? ==>
              exists n :: IsFirstActionRound(targets, rounds, n) && RoundAction(targets, rounds[n]) == r.value
  {
    var unknown := FirstUnknown(g, targets);
    if unknown.Some? {
      assert !Known(g, targets[unknown.value]);
      return Err(UnknownPlayer(targets[unknown.value]));
    }
    var n := 0;
    while n < |rounds|
      invariant n <= |rounds|
      invariant forall m :: 0 <= m < n ==> RoundAction(targets, rounds[m]).None?
    {
      var a := RoundAction(targets, rounds[n]);
      if a.Some? {
        assert IsFirstActionRound(targets, rounds, n);
        return Ok(a);
      }
      n := n + 1;
    }
    return Ok(None);
  }

  /** The player has a card of one of the `allowed` types. */
  predicate HasCardOf(p: Player, allowed: set<CardType>) {
    exists c :: c in p.hand && c.kind in allowed
  }

  /** The window is offered to target `id`: it is on the roster and can answer. */
  predicate Offered(g: Game, id: nat, allowed: set<CardType>) {
    var s := FindIndex(g.players, id);
    s.Some? && HasCardOf(g.players[s.value], allowed)
  }

  /** Target `i` was offered the window and answered with a play of an allowed type. */
  predicate ValidReply(g: Game, targets: seq<nat>, allowed: set<CardType>, replies: map<nat, Message>, i: int)
  {
    && 0 <= i < |targets|
    && Offered(g, targets[i], allowed)
    && targets[i] in replies
    && replies[targets[i]].PlayMsg?
    && replies[targets[i]].kind in allowed
  }

  /** The card action a valid reply of target `i` stands for. */
  function ReplyAction(targets: seq<nat>, replies: map<nat, Message>, i: nat): CardAction
    requires i < |targets| && targets[i] in replies && replies[targets[i]].PlayMsg?
  {
    var m := replies[targets[i]];
    CardAction(m.cardId, m.kind, targets[i], m.targetId)
  }

  /** Reference search: the first target from `i` on with a valid reply. */
  function FirstValid(g: Game, targets: seq<nat>, allowed: set<CardType>, replies: map<nat, Message>, i: nat)
    : (r: Option<nat>)
    requires i <= |targets|
    ensures r.Some? ==> i <= r.value && ValidReply(g, targets, allowed, replies, r.value)
    ensures r.Some? ==> forall m :: i <= m < r.value ==> !ValidReply(g, targets, allowed, replies, m)
    ensures r.None? <==> forall m :: i <= m ==> !ValidReply(g, targets, allowed, replies, m)
    decreases |targets| - i
  {
    if i == |targets| then None
    else if ValidReply(g, targets, allowed, replies, i) then Some(i)
    else FirstValid(g, targets, allowed, replies, i + 1)
  }

  /** Every flag of `pass` is set. */
  predicate AllTrue(pass: seq<bool>) {
    forall k :: 0 <= k < |pass| ==> pass[k]
  }

  /**
   * The scan of waitForReact from target `i` on, with `pass` recording who
   * has passed so far: the first allowed play wins, a disallowed play or an
   * unreadable message is skipped, and a pass that completes a unanimous pass
   * ends the window with no reaction.
   */
  function ScanReplies(g: Game, targets: seq<nat>, allowed: set<CardType>, replies: map<nat, Message>,
                       i: nat, pass: seq<bool>): (r: Option<CardAction>)
    requires i <= |targets| && |pass| == |targets|
    requires forall k :: 0 <= k < |pass| && pass[k] ==> k < i
    ensures var k := FirstValid(g, targets, allowed, replies, i);
            r == if k.Some? then Some(ReplyAction(targets, replies, k.value)) else None
    decreases |targets| - i
  {
    if i == |targets| then None
    else if Offered(g, targets[i], allowed) && targets[i] in replies then
      match replies[targets[i]]
      case PlayMsg(cid, kind, tid) =>
        if kind in allowed then
          Some(CardAction(cid, kind, targets[i], tid))
        else
          ScanReplies(g, targets, allowed, replies, i + 1, pass)
      case PassMsg(_) =>
        var pass2 := pass[i := true];
        if AllTrue(pass2) then
          // a unanimous pass can only be completed by the last target
          assert pass2[|targets| - 1];
          assert i == |targets| - 1;
          None
        else ScanReplies(g, targets, allowed, replies, i + 1, pass2)
      case OtherMsg => ScanReplies(g, targets, allowed, replies, i + 1, pass)
      case EmptyMsg => ScanReplies(g, targets, allowed, replies, i + 1, pass)
    else
      ScanReplies(g, targets, allowed, replies, i + 1, pass)
  }

  /**
   * waitForReact: every target must be on the roster; the window is offered
   * to the targets holding an allowed card, and the first of them, in target
   * order, whose reply is an allowed play supplies the reaction.
   */
  function WaitForReact(g: Game, targets: seq<nat>, allowed: set<CardType>, replies: map<nat, Message>)
    : (r: Result<Option<CardAction>, Error>)
    ensures r.Err? <==> exists k :: 0 <= k < |targets| && !Known(g, targets[k])
    ensures r.Err? ==> exists k :: 0 <= k < |targets| && !Known(g, targets[k]) && r.error == UnknownPlayer(targets[k])
    ensures r.Ok? && r.value.None? <==>
              (forall k :: 0 <= k < |targets| ==> Known(g, targets[k]))
              && forall k :: 0 <= k < |targets| ==> !ValidReply(g, targets, allowed, replies, k)
    ensures r.Ok? && r.value.Some? ==>
              exists k :: ValidReply(g, targets, allowed, replies, k)
                          && (forall m :: 0 <= m < k ==> !ValidReply(g, targets, allowed, replies, m))
                          && r.value.value == ReplyAction(targets, replies, k)
  {
    match FirstUnknown(g, targets)
    case Some(k) => Err(UnknownPlayer(targets[k]))
    case None => Ok(ScanReplies(g, targets, allowed, replies, 0, seq(|targets|, _ => false)))
  }
}

=== FILE: roster.dfy ===
/**
 * The game controller's roster: players in seating order, the draw pile, and
 * the turn cursor, together with lookup by id and the id lists handed to the
 * reaction windows (GameControllerTools.cpp).
 */
module Roster {
  import opened Wrappers
  import Seqs

  /** Card types the turn engine distinguishes; every other type is opaque to it. */
  datatype CardType = Peach | PeachGardenOath | OtherKind(tag: nat)

  datatype Card = Card(id: nat, kind: CardType)

  /** One seat at the table; the channel and its lock are not modelled. */
  datatype Player = Player(id: nat, health: int, maxHealth: int, alive: bool, hand: seq<Card>)

  /**
   * Controller state: `currIdx` is the seat of the turn cursor and `playingId`
   * the id of the player whose turn is in progress.
   */
  datatype Game = Game(players: seq<Player>, pile: seq<Card>, currIdx: nat, playingId: nat)

  /** A played card as the engine records it: who played which card at whom. */
  datatype CardAction = CardAction(cardId: nat, kind: CardType, sourceId: nat, targetId: nat)

  /** The exceptions the controller raises to its caller. */
  datatype Error =
    | NoLivingPlayer
    | UnknownPlayer(id: nat)
    | PlayerDead(id: nat)
    | CardNotInHand(playerId: nat, cardId: nat)
    | TypeMismatch(cardId: nat)

  /** The cursor names a seat whenever there is one. */
  predicate CursorValid(g: Game) {
    g.currIdx < |g.players| || g.players == []
  }

  function PlayerId(p: Player): nat { p.id }

  function CardId(c: Card): nat { c.id }

  /** `k` is the first seat whose player carries `id`. */
  predicate IsFirstSeat(ps: seq<Player>, id: nat, k: nat)
  {
    Seqs.IsFirstKey(ps, PlayerId, id, k)
  }

  /** Seat of the first player with the given id, if any. */
  function FindIndex(ps: seq<Player>, id: nat): (r: Option<nat>)
    ensures r.Some? ==> IsFirstSeat(ps, id, r.value)
    ensures r.None? <==> forall k :: 0 <= k < |ps| ==> ps[k].id != id
  {
    if ps == [] then None
    else if ps[0].id == id then Some(0)
    else match FindIndex(ps[1..], id)
      case None => None
      case Some(k) => Some(k + 1)
  }

  /**
   * findPlayerById: the seat of the first roster entry carrying `id`, or the
   * unknown-player error when no entry does.
   */
  function FindPlayerById(g: Game, id: nat): (r: Result<nat, Error>)
    ensures r.Ok? ==> IsFirstSeat(g.players, id, r.value)
    ensures r.Err? <==> forall k :: 0 <= k < |g.players| ==> g.players[k].id != id
    ensures r.Err? ==> r.error == UnknownPlayer(id)
  {
    match FindIndex(g.players, id)
    case Some(k) => Ok(k)
    case None => Err(UnknownPlayer(id))
  }

  /** The ids of `ps`, seat by seat. */
  function Ids(ps: seq<Player>): (r: seq<nat>)
    ensures |r| == |ps|
    ensures forall i :: 0 <= i < |ps| ==> r[i] == ps[i].id
  {
    if ps == [] then [] else [ps[0].id] + Ids(ps[1..])
  }

  /** The ids of `ps` other than `cid`, in seating order. */
  function IdsExcept(ps: seq<Player>, cid: nat): (r: seq<nat>)
    ensures Seqs.IsSubseq(r, Ids(ps))
    ensures multiset(r) == multiset(Ids(ps))[cid := 0]
  {
    if ps == [] then []
    else
      var rest := IdsExcept(ps[1..], cid);
      assert Ids(ps) == [ps[0].id] + Ids(ps[1..]);
      if ps[0].id != cid then
        [ps[0].id] + rest
      else
        Seqs.SubseqSkip(rest, Ids(ps));
        rest
  }

  /**
   * getPlayerList, as its documentation and its callers intend it: every id
   * in seating order, or every id but the current player's.
   */
  function PlayerList(g: Game, excludeCurrent: bool): (r: seq<nat>)
    requires g.currIdx < |g.players|
    ensures !excludeCurrent ==> |r| == |g.players| && forall i :: 0 <= i < |r| ==> r[i] == g.players[i].id
    ensures excludeCurrent ==> Seqs.IsSubseq(r, Ids(g.players))
    ensures excludeCurrent ==> multiset(r) == multiset(Ids(g.players))[g.players[g.currIdx].id := 0]
  {
    if excludeCurrent then IdsExcept(g.players, g.players[g.currIdx].id) else Ids(g.players)
  }

  /** All cards held in the players' hands. */
  function HandCards(ps: seq<Player>): multiset<Card>
  {
    if ps == [] then multiset{} else multiset(ps[0].hand) + HandCards(ps[1..])
  }

  /** Every card the controller owns: the hands and the pile. */
  function CardsInPlay(g: Game): multiset<Card>
  {
    HandCards(g.players) + multiset(g.pile)
  }

  /** Replacing one player's hand swaps exactly that hand's cards in the total. */
  lemma {:induction false} HandCardsUpdate(ps: seq<Player>, k: nat, p: Player)
    requires k < |ps|
    ensures HandCards(ps[k := p]) + multiset(ps[k].hand) == HandCards(ps) + multiset(p.hand)
    decreases k
  {
    var qs := ps[k := p];
    if k > 0 {
      HandCardsUpdate(ps[1..], k - 1, p);
      assert qs[1..] == ps[1..][k - 1 := p];
      calc {
        HandCards(qs) + multiset(ps[k].hand);
        multiset(ps[0].hand) + (HandCards(qs[1..]) + multiset(ps[1..][k - 1].hand));
        multiset(ps[0].hand) + (HandCards(ps[1..]) + multiset(p.hand));
        HandCards(ps) + multiset(p.hand);
      }
    } else {
      assert qs[1..] == ps[1..];
    }
  }

  /** Changes that leave every hand alone leave the hand total alone. */
  lemma {:induction false} HandCardsSameHands(ps: seq<Player>, qs: seq<Player>)
    requires |ps| == |qs|
    requires forall i :: 0 <= i < |ps| ==> ps[i].hand == qs[i].hand
    ensures HandCards(ps) == HandCards(qs)
    decreases |ps|
  {
    if ps != [] {
      HandCardsSameHands(ps[1..], qs[1..]);
    }
  }
}

=== FILE: seqs.dfy ===
/** Order-preserving sub-sequences, the shape every registry removal produces. */
module Seqs {

  /** `a` can be obtained from `b` by deleting elements, keeping the order of the rest. */
  predicate IsSubseq<T(==)>(a: seq<T>, b: seq<T>)
    decreases |b|
  {
    if a == [] then true
    else if b == [] then false
    else if a[0] == b[0] then IsSubseq(a[1..], b[1..])
    else IsSubseq(a, b[1..])
  }

  /** `s` without its element at position `k`. */
  function RemoveAt<T>(s: seq<T>, k: nat): (r: seq<T>)
    requires k < |s|
    ensures |r| == |s| - 1
    ensures forall j :: 0 <= j < k ==> r[j] == s[j]
    ensures forall j :: k <= j < |r| ==> r[j] == s[j + 1]
    ensures multiset(r) + multiset{s[k]} == multiset(s)
  {
    assert s == s[..k] + [s[k]] + s[k + 1..];
    s[..k] + s[k + 1..]
  }

  /** Removing past the head is removing from the tail. */
  lemma RemoveAtTail<T>(s: seq<T>)
    ensures forall k :: 0 < k < |s| ==> RemoveAt(s, k) == [s[0]] + RemoveAt(s[1..], k - 1)
  {
    forall k | 0 < k < |s|
      ensures RemoveAt(s, k) == [s[0]] + RemoveAt(s[1..], k - 1)
    {
      assert RemoveAt(s, k)[0] == s[0];
    }
  }

  /** `k` is the first position of `s` whose element carries the key `id`. */
  predicate IsFirstKey<T>(s: seq<T>, key: T -> nat, id: nat, k: nat)
  {
    k < |s| && key(s[k]) == id && forall i :: 0 <= i < k ==> key(s[i]) != id
  }

  /** There is only one first position for a key. */
  lemma FirstKeyOnly<T>(s: seq<T>, key: T -> nat, id: nat, k: nat)
    requires IsFirstKey(s, key, id, k)
    ensures forall k2: nat :: IsFirstKey(s, key, id, k2) ==> k2 == k
  {
  }

  /** Every sequence is a sub-sequence of itself. */
  lemma {:induction false} SubseqRefl<T>(s: seq<T>)
    ensures IsSubseq(s, s)
    decreases |s|
  {
    if s != [] {
      SubseqRefl(s[1..]);
    }
  }

  /** Dropping the head of the larger sequence can only be undone by keeping it. */
  lemma {:induction false} SubseqSkip<T>(a: seq<T>, b: seq<T>)
    requires b != []
    requires IsSubseq(a, b[1..])
    ensures IsSubseq(a, b)
    decreases |b|, |a|
  {
    if a != [] && a[0] == b[0] {
      // IsSubseq(a, b) needs IsSubseq(a[1..], b[1..]), obtained from a[1..] being
      // a sub-sequence of a, itself a sub-sequence of b[1..].
      SubseqTail(a, b[1..]);
    }
  }

  /** Removing the head of the smaller sequence keeps it a sub-sequence. */
  lemma {:induction false} SubseqTail<T>(a: seq<T>, b: seq<T>)
    requires a != []
    requires IsSubseq(a, b)
    ensures IsSubseq(a[1..], b)
    decreases |b|, |a|
  {
    assert b != [];
    if a[0] == b[0] {
      SubseqSkip(a[1..], b);
    } else {
      SubseqTail(a, b[1..]);
      SubseqSkip(a[1..], b);
    }
  }

  /** Deleting one element leaves a sub-sequence. */
  lemma {:induction false} RemoveAtIsSubseq<T>(s: seq<T>, k: nat)
    requires k < |s|
    ensures IsSubseq(RemoveAt(s, k), s)
    decreases k
  {
    if k == 0 {
      assert RemoveAt(s, 0) == s[1..];
      SubseqRefl(s[1..]);
      SubseqSkip(s[1..], s);
    } else {
      RemoveAtIsSubseq(s[1..], k - 1);
      RemoveAtTail(s);
      var r := RemoveAt(s, k);
      assert r[0] == s[0] && r[1..] == RemoveAt(s[1..], k - 1);
    }
  }

  /** Every element of a sub-sequence comes from the larger sequence. */
  lemma {:induction false} SubseqMembers<T>(a: seq<T>, b: seq<T>)
    requires IsSubseq(a, b)
    ensures forall x :: x in a ==> x in b
    decreases |b|
  {
    if a != [] {
      if a[0] == b[0] {
        SubseqMembers(a[1..], b[1..]);
        assert forall x :: x in a ==> x == a[0] || x in a[1..];
      } else {
        SubseqMembers(a, b[1..]);
      }
    }
  }
}

=== FILE: turns.dfy ===
/**
 * Turn order over the roster: advancing the cursor to the next living player
 * (nextPlayerIdx) and deciding whether a target sits next to the current
 * player (isNearby), both skipping dead seats.
 */
module Turns {
  import opened Wrappers
  import opened Roster
  import Circular

  /** Every seat met on the first `s - 1` clockwise steps from `from` is dead. */
  predicate DeadBefore(ps: seq<Player>, from: nat, s: nat)
    requires |ps| > 0
  {
    forall k :: 1 <= k < s ==> !ps[Circular.At(from, k, |ps|)].alive
  }

  /** `s` clockwise steps from `from`, at most a full turn, reach the first living seat. */
  predicate FirstAliveClockwise(ps: seq<Player>, from: nat, s: nat)
    requires |ps| > 0
  {
    1 <= s <= |ps| && ps[Circular.At(from, s, |ps|)].alive && DeadBefore(ps, from, s)
  }

  /** The nearest living seat to the right of `from`, the seat itself excluded, is `s` steps away. */
  predicate NearestRight(ps: seq<Player>, from: nat, s: nat)
    requires |ps| > 0
  {
    s < |ps| && FirstAliveClockwise(ps, from, s)
  }

  /** The nearest living seat to the left of `from`, the seat itself excluded, is `s` steps away. */
  predicate NearestLeft(ps: seq<Player>, from: nat, s: nat)
    requires |ps| > 0
  {
    && 1 <= s < |ps|
    && ps[Circular.LeftAt(from, s, |ps|)].alive
    && forall k :: 1 <= k < s ==> !ps[Circular.LeftAt(from, k, |ps|)].alive
  }

  /** A dead stretch of `s - 1` steps covers every seat fewer than `s` steps away. */
  lemma DeadBeforeCovers(ps: seq<Player>, from: nat, s: nat)
    requires |ps| > 0 && DeadBefore(ps, from, s)
    ensures forall j :: 0 <= j < |ps| && Circular.StepsTo(from, j, |ps|) < s ==> !ps[j].alive
  {
    forall j | 0 <= j < |ps| && Circular.StepsTo(from, j, |ps|) < s
      ensures !ps[j].alive
    {
      var k := Circular.StepsTo(from, j, |ps|);
      assert Circular.At(from, k, |ps|) == j;
    }
  }

  /** A search that comes back to its own start seat found everybody else dead. */
  lemma SoleSurvivor(ps: seq<Player>, from: nat, s: nat)
    requires |ps| > 0 && from < |ps|
    requires FirstAliveClockwise(ps, from, s) && Circular.At(from, s, |ps|) == from
    ensures forall j :: 0 <= j < |ps| && j != from ==> !ps[j].alive
  {
    Circular.AtLeavesStart(from, s, |ps|);
    assert s == |ps|;
    DeadBeforeCovers(ps, from, s);
    forall j | 0 <= j < |ps| && j != from
      ensures !ps[j].alive
    {
      assert Circular.StepsTo(from, j, |ps|) < s;
    }
  }

  /**
   * nextPlayerIdx: walk clockwise from the cursor for at most a full turn and
   * move the cursor, and the id of the player in turn, to the first living
   * seat met; fail when nobody is alive.
   */
  method NextPlayerIdx(g: Game) returns (r: Result<Game, Error>)
    ensures r.Err? <==> forall j :: 0 <= j < |g.players| ==> !g.players[j].alive
    ensures r.Err? ==> r.error == NoLivingPlayer
    ensures r.Ok? ==> r.value.currIdx < |g.players| && g.players[r.value.currIdx].alive
    ensures r.Ok? ==> r.value == g.(currIdx := r.value.currIdx, playingId := g.players[r.value.currIdx].id)
    ensures r.Ok? ==> exists s :: FirstAliveClockwise(g.players, g.currIdx, s)
                                  && r.value.currIdx == Circular.At(g.currIdx, s, |g.players|)
    ensures r.Ok? && g.currIdx < |g.players| && r.value.currIdx == g.currIdx ==>
              forall j :: 0 <= j < |g.players| && j != g.currIdx ==> !g.players[j].alive
  {
    var n := |g.players|;
    var i := 1;
    while i <= n
      invariant 1 <= i <= n + 1
      invariant n > 0 ==> DeadBefore(g.players, g.currIdx, i)
    {
      var idx := Circular.At(g.currIdx, i, n);
      if g.players[idx].alive {
        assert FirstAliveClockwise(g.players, g.currIdx, i);
        if g.currIdx < n && idx == g.currIdx {
          SoleSurvivor(g.players, g.currIdx, i);
        }
        return Ok(g.(currIdx := idx, playingId := g.players[idx].id));
      }
      i := i + 1;
    }
    if n > 0 {
      DeadBeforeCovers(g.players, g.currIdx, i);
    }
    return Err(NoLivingPlayer);
  }

  /**
   * isNearby: `t` is the id of the first living player met walking left from
   * the cursor, or of the first one met walking right; the cursor's own seat
   * is never considered.
   */
  method IsNearby(g: Game, t: nat) returns (b: bool)
    ensures b <==> (|g.players| > 0 &&
                    ((exists s :: NearestLeft(g.players, g.currIdx, s)
                                  && g.players[Circular.LeftAt(g.currIdx, s, |g.players|)].id == t)
                     || (exists s :: NearestRight(g.players, g.currIdx, s)
                                     && g.players[Circular.At(g.currIdx, s, |g.players|)].id == t)))
    ensures (|g.players| > 0 &&
             forall j :: 0 <= j < |g.players| && j != g.currIdx % |g.players| ==> !g.players[j].alive) ==> !b
  {
    var n := |g.players|;
    if n == 0 {
      // both scans below are empty
      return false;
    }
    var i := 1;
    while i < n
      invariant 1 <= i <= n
      invariant forall k :: 1 <= k < i ==> !g.players[Circular.LeftAt(g.currIdx, k, n)].alive
    {
      var idxL := Circular.LeftAt(g.currIdx, i, n);
      if g.players[idxL].alive {
        if g.players[idxL].id == t {
          assert NearestLeft(g.players, g.currIdx, i);
          Circular.AtLeavesStart(g.currIdx, n - i, n);
          return true;
        }
        break;
      }
      i := i + 1;
    }
    assert forall s :: NearestLeft(g.players, g.currIdx, s) ==> g.players[Circular.LeftAt(g.currIdx, s, n)].id != t;
    i := 1;
    while i < n
      invariant 1 <= i <= n
      invariant DeadBefore(g.players, g.currIdx, i)
    {
      var idxR := Circular.At(g.currIdx, i, n);
      if g.players[idxR].alive {
        if g.players[idxR].id == t {
          assert NearestRight(g.players, g.currIdx, i);
          Circular.AtLeavesStart(g.currIdx, i, n);
          return true;
        }
        break;
      }
      i := i + 1;
    }
    assert forall s :: NearestRight(g.players, g.currIdx, s) ==> g.players[Circular.At(g.currIdx, s, n)].id != t;
    return false;
  }
}

=== FILE: wrappers.dfy ===
/** Failure-carrying result types shared by every module of the model. */
module Wrappers {

  /** A value that may be absent. */
  datatype Option<+T> = None | Some(value: T)

  /** Either a value or the error the operation reports instead of one. */
  datatype Result<+T, +E> = Ok(value: T) | Err(error: E)

  /** Success without a value, or the error that stopped the operation. */
  datatype Outcome<+E> = Pass | Fail(error: E)
}
